=== FILE: README.md ===
# pyinterp argument layer in Dafny

This project models the pure Python layer of pyinterp that checks and shapes arguments
before they reach the native interpolation engine. It does not model the engine itself.

- **xarray backend** (`src/pyinterp/backends/xarray.py`) covers four steps:
  - It identifies the longitude and latitude coordinates of a data array from their
    `units` attribute.
  - It checks the number of dimensions.
  - It chooses the dimension and kind of every grid axis for `Grid2D`, `Grid3D` and
    `Grid4D`. This includes the datetime64 axis and the z/u swap of the 4-D grid.
  - It decodes the user's coordinate dictionary into positional arguments, and
    `RegularGridInterpolator` routes a call to the right interpolation function.
- **RTree front end** (`src/pyinterp/rtree.py`) covers three steps:
  - It validates `ndims` and `dtype` and names the native class.
  - It validates the radial basis function and `epsilon`, and mangles the snake_case
    name into the member name of the native enumeration.
  - It defines the pickle state.

Every operation is a pure function returning `Result` or `Option`. Each exception the
source raises explicitly is an error variant. So is each Python runtime error raised by
the checks it makes: a failed tuple unpacking, `pop` from an empty set, a missing
coordinate, a missing dictionary key, and a keyword given twice. The runtime errors
listed under "## Left out" are not modelled. Foreign calls are recorded, not executed. Examples are `core.Axis`,
`axis.TemporalAxis`, `DataArray.transpose`, the `interpolator.*` functions and the
native `RTree` instance. A grid records which coordinate builds each axis, whether the
axis is circular or temporal, and the transposition order. A call records the
`Invocation` it makes. The time axis' `safe_cast` is a function parameter.

A data array is reduced to what the backend reads: its dimension names, and its
coordinates in iteration order, each with a name, an optional `units` and a datetime64
flag. Python's set iteration order is arbitrary. `Grid3D` uses it in
`(set(dims) - {x, y}).pop()` and `Grid4D` in `tuple(set(dims) - {x, y})`. The model
therefore takes the order as a parameter `setOrder`, required to list `set(dims)`
exactly once. Every property is proved for all such orders.

Modules:
- `wrappers.dfy`: `Option` and `Result`.
- `data_array.dfy`: data arrays and backend errors.
- `axis_identifier.dfy`: axis identification and `_dims_from_data_array`.
- `coords.dfy`: `_coords`.
- `grids.dfy`: the three grid constructors.
- `regular_grid.dfy`: `RegularGridInterpolator`.
- `text.dfy`: decimal rendering, `split`, `capitalize`, `join` and their inverses.
- `rtree.dfy`: `RTree` construction and pickling.
- `rbf.dfy`: `radial_basis_function`.

Three defects of the source are listed under "## Findings". For each, a member whose name
ends in `AsWritten` models the code as written. The member with the plain name is the
corrected version, and a lemma relates the two.

## Model

| member | source | states |
|---|---|---|
| AxisIdentifier.AxisOf | src/pyinterp/backends/xarray.py:40-43 | The result is None exactly when no coordinate has units in the set. Otherwise it is the name of the first such coordinate in iteration order; coordinates without units never match. |
| AxisIdentifier.Longitude | src/pyinterp/backends/xarray.py:45-57 | The name of the first coordinate with a longitude unit, or None exactly when there is none. |
| AxisIdentifier.Latitude | src/pyinterp/backends/xarray.py:59-71 | The name of the first coordinate with a latitude unit, or None exactly when there is none. |
| AxisIdentifier.DimsFromDataArray | src/pyinterp/backends/xarray.py:97-113 | A wrong dimension count is reported first, whatever the coordinates. A Cartesian grid gets a prefix of the coordinate names: the first two, or fewer if there are fewer. A geodetic grid gets (first longitude, first latitude). A missing longitude is reported before the latitude is looked up. With both present it always succeeds. It returns two names exactly when `LeadingNames` finds them, and then it returns those names. |
| AxisIdentifier.UnitSetsDisjoint | src/pyinterp/backends/xarray.py:175-182 | No unit identifies both a longitude and a latitude. |
| AxisIdentifier.LeadingAxesDistinct | src/pyinterp/backends/xarray.py:103-113 | On an array with unique coordinate names, the two leading axes are different coordinates, in both modes. |
| CoordArgs.Coords | src/pyinterp/backends/xarray.py:139-151 | Errors come in source order: not a dict, then a wrong count, then unknown axes named as a set. It succeeds exactly when the keys are the dimensions and the datetime64 dimension is one of them. Entry i is the value for dims[i], cast only for the time dimension. The caller's dict keeps its keys and only its time entry changes. |
| Grids.Grid2D | src/pyinterp/backends/xarray.py:193-199 | Only a 2-D array is accepted. A 2-D array is accepted exactly when its two leading names exist. That means a longitude and a latitude coordinate for a geodetic grid, and at least two coordinates for a Cartesian one. Otherwise the error is the missing longitude, then the missing latitude, or the IndexError of indexing the too-short `self._dims`. Axes, decoding order and transposition order agree. Only x is circular, and x is circular exactly when the grid is geodetic; y is a plain numeric axis. Geodetic axes are the first longitude and latitude coordinates; Cartesian ones are the first two coordinates. |
| Grids.Grid3D | src/pyinterp/backends/xarray.py:274-290 | Only a 3-D array is accepted. A missing longitude, a missing latitude, or fewer than two Cartesian coordinates is reported as `_dims_from_data_array` and the unpacking `x, y = ...` report it. `pop` fails exactly when no dimension other than x and y is left. A missing coordinate is always one of the dimensions left. If a dimension is left and every one left has a coordinate, the grid is built. x and y are the leading axes and z is a dimension other than x and y, with a coordinate. The third axis is temporal exactly when its coordinate is datetime64. The three orders agree. Only x may be circular, and y is a plain numeric axis. So the recorded time dimension is z when the third axis is temporal and None otherwise (see `TimeAxisIsThird`). |
| Grids.Grid3DFrom | src/pyinterp/backends/xarray.py:275-290 | Once x and y are known: `pop` fails exactly when no dimension other than x and y is left. A KeyError names a dimension left without a coordinate. The grid is built whenever a dimension is left and all those left have coordinates, and z then has a coordinate. The grid's orders agree, only x may be circular, y is plain numeric, and only the third axis may be temporal. |
| Grids.Grid3DLeavesThirdDim | src/pyinterp/backends/xarray.py:274-275 | On a well-formed 3-D array, a dimension other than x and y is always left, so `pop` never fails. |
| Grids.Grid3DOf | src/pyinterp/backends/xarray.py:276-290 | Once x, y and a distinct z are chosen, the axes are built in the order (x, y, z), as are the decoding and transposition orders. Only x may be circular, and y is a plain numeric axis. The third axis is temporal exactly when z is a datetime64 coordinate, and z is then the recorded time dimension. |
| Grids.Select4D | src/pyinterp/backends/xarray.py:369-386 | Only a 4-D array is accepted. The leading names fail as in `Grid3D`. The unpacking `z, u = tuple(...)` fails exactly when the number of dimensions left is not two. A missing coordinate is one of the dimensions left. If two dimensions are left and both have coordinates, the selection succeeds exactly when they are not both datetime64. Otherwise the error is "unable to handle two time axes". {z, u} are exactly the dimensions other than x and y, z and u differ, and both have coordinates. Each time flag reflects its coordinate's dtype. |
| Grids.Select4DFrom | src/pyinterp/backends/xarray.py:370-386 | Once x and y are known: the unpacking fails exactly when not two dimensions are left. With two left, both with coordinates, it succeeds exactly when they are not both datetime64, and fails with TwoTimeAxes otherwise. On success both have coordinates. |
| Grids.Pick4D | src/pyinterp/backends/xarray.py:373-384 | The coordinate of z is looked up first: if it is missing, the KeyError names z. If z has one and u does not, the KeyError names u. With both present the selection is refused exactly when both are datetime64. |
| Grids.Axes4D | src/pyinterp/backends/xarray.py:386-394 | The axes are built from x, y, Z and U after the swap. Only x may be circular. The time axis, if any, is third, and the fourth axis is numeric. |
| Grids.Grid4DAsWritten | src/pyinterp/backends/xarray.py:369-394 | As written, it fails exactly when the selection fails, with the same error. dims, axes and transposition cover the same four names and agree on x and y. Only the transposition follows the axis order. An axis is temporal exactly when its coordinate is the recorded time dimension, and with no temporal axis nothing is recorded. Only x may be circular, y and the fourth axis are plain numeric, so only the third axis may be temporal. |
| Grids.Grid4D | src/pyinterp/backends/xarray.py:369-394 | Corrected: it fails exactly when the selection fails, with the same error. The three orders agree, and the recorded time dimension is the temporal axis' coordinate, or None without one. x and y are the leading names. {z, u} are the other dimensions, and they differ. Only x may be circular and y is plain numeric. At most one axis is temporal, it is always the third, and the fourth is never a time coordinate. |
| Grids.Grid4DOf | src/pyinterp/backends/xarray.py:386-394 | From a selection, the grid decodes, builds and transposes in the order (x, y, Z, U) after the swap. x alone may be circular and y is plain numeric. The third axis is temporal exactly when its coordinate is datetime64, and then it is the recorded time dimension. The fourth is never a time coordinate. |
| Grids.TimeAxisIsThird | src/pyinterp/backends/xarray.py:277-290 | When x and y are `core.Axis` axes and no axis after the third is temporal, a time dimension is recorded exactly when the third axis is temporal, and it is that axis' coordinate. |
| Grids.Grid2DDimsDistinct | src/pyinterp/backends/xarray.py:193-199 | On an array with unique coordinate names, the 2-D grid names two different dimensions. |
| Grids.Grid3DDimsDistinct | src/pyinterp/backends/xarray.py:274-276 | On a well-formed array, the 3-D grid names three different dimensions. |
| Grids.Grid4DDimsDistinct | src/pyinterp/backends/xarray.py:370-386 | On a well-formed array, the corrected 4-D grid names four different dimensions. |
| Grids.Grid3DThirdIsTheOtherDim | src/pyinterp/backends/xarray.py:274-276 | On a well-formed array, z is exactly the one dimension left after removing x and y, for every set order. |
| Grids.Select4DUnpacks | src/pyinterp/backends/xarray.py:369-370 | On a well-formed 4-D array whose leading names are dimensions, exactly two dimensions are left, so `z, u = tuple(...)` never fails to unpack. |
| Grids.Grid4DAcceptance | src/pyinterp/backends/xarray.py:369-394 | Take a 4-D array whose leading names exist, with exactly two dimensions left and both having coordinates. The grid as written and the corrected grid are built exactly when those two are not both datetime64. Otherwise "unable to handle two time axes" is raised. |
| Grids.Grid4DFixOnlyReordersDims | src/pyinterp/backends/xarray.py:371-386 | The corrected and as-written grids fail alike. They build the same axes, transposition and time axis. Their dims differ exactly when u is the time coordinate, which is when the swap happens. |
| Grids.Grid4DAsWrittenMisordersDims | src/pyinterp/backends/xarray.py:369-386 | Take (lon, lat, depth, time) with a datetime64 time, in that set order. As written, the time axis is built third while dims keep depth third, so the grid is not consistent. |
| RegularGrid.NewInterpolatorAsWritten | src/pyinterp/backends/xarray.py:479-496 | Only 2, 3 or 4 dimensions are accepted; any other count raises NotImplementedError. The grid has one axis per dimension and the interpolation function has that arity. The axes follow the transposition order. The decoding order agrees with them for 2-D and 3-D arrays; for 4-D arrays `InterpolatorFixOnlyReordersDims` shows it agrees unless u is the time coordinate. The grid is the one `Grid2D`, `Grid3D` or `Grid4D` as written builds for that dimension, and their errors reach the caller unchanged. |
| RegularGrid.NewInterpolator | src/pyinterp/backends/xarray.py:479-496 | Corrected, with the corrected `Grid4D`: the same dimension dispatch and error. The grid is the one `Grid2D`, `Grid3D` or the corrected `Grid4D` builds, and their errors reach the caller unchanged. The three orders agree for every array. |
| RegularGrid.InterpolatorFixOnlyReordersDims | src/pyinterp/backends/xarray.py:479-496 | The corrected constructor fails exactly when the one as written does. It builds the same interpolator except for the decoding order. That order differs exactly for a 4-D array whose fourth dimension in set order is the time coordinate. |
| RegularGrid.Call | src/pyinterp/backends/xarray.py:546-555 | 'bicubic' goes to bicubic with `bicubic_kwargs` (or none) and no interpolator keyword. A keyword that clashes is a TypeError raised before decoding. Any other method is passed unchanged as `interpolator=` to the grid's function. bounds_error and num_threads are passed through. The arguments are always the coordinates decoded in the grid's `_dims` order. On a consistent grid, argument i is the user's value for axis i. |
| RegularGrid.InterpolatorDimsDistinct | src/pyinterp/backends/xarray.py:479-496 | On a well-formed array, every grid the corrected constructor builds names each dimension once. |
| RegularGrid.CallArgumentsMatchAxes | src/pyinterp/backends/xarray.py:546-555 | Corrected: for every interpolator the corrected constructor builds, a successful call passes one argument per axis. Each argument is the user's value for that axis' coordinate, cast for the time axis. On a well-formed array, a call succeeds whenever the dictionary's keys are exactly the grid's dimensions and no `bicubic_kwargs` keyword clashes. |
| RegularGrid.CallArgumentsMatchAxesAsWritten | src/pyinterp/backends/xarray.py:546-555 | With the constructor as written, a successful call's arguments match the axes as above for every interpolator except a 4-D one whose fourth dimension in set order is the time coordinate. On a well-formed array, a call succeeds whenever the dictionary's keys are exactly the grid's dimensions and no `bicubic_kwargs` keyword clashes; this holds for every interpolator. |
| RegularGrid.InterpolatorAsWrittenDecodable | src/pyinterp/backends/xarray.py:479-496 | On a well-formed array, the grid the constructor as written builds names each dimension once, and its time dimension is one of them. |
| RegularGrid.CallOnAsWrittenGrid4DMisplacesDepth | src/pyinterp/backends/xarray.py:412-414 | The constructor as written builds an interpolator on which the depth value is passed in the position of the time axis. |
| Text.ParseDecimalOfDecimal | src/pyinterp/rtree.py:36-38 | Reading back the decimal rendering of an int gives the int, so the rendering is injective. |
| Text.Split | src/pyinterp/rtree.py:236 | `split('_')` gives at least one part, no part contains '_', and joining the parts with '_' gives the name back. |
| Text.UnmangleMangle | src/pyinterp/rtree.py:236 | On snake_case names, capitalising and concatenating the parts is undone by splitting at capitals. |
| Text.MangleInjective | src/pyinterp/rtree.py:236 | Two snake_case names never mangle to the same identifier. |
| Text.MangleHasNoUnderscore | src/pyinterp/rtree.py:236 | A mangled name never contains '_'. |
| RTreeFront.NewRTree | src/pyinterp/rtree.py:33-41 | ndims < 3 is refused first. Any dtype other than float64 or float32 is refused next. Otherwise the dtype is recorded. The class name is exactly `RTree{ndims}DFloat64` or `RTree{ndims}DFloat32`, and it reads back to (ndims, dtype). |
| RTreeFront.ParseClassNameOfClassName | src/pyinterp/rtree.py:36-38 | `RTree{ndims}DFloat64` and `RTree{ndims}DFloat32` can be read back to (ndims, dtype). |
| RTreeFront.ClassNamesDistinct | src/pyinterp/rtree.py:35-38 | Different (ndims, dtype) pairs select different native classes. |
| RTreeFront.GetStateAsWritten | src/pyinterp/rtree.py:242-243 | The state is the pair (dtype, native state). |
| RTreeFront.SetStateAsWritten | src/pyinterp/rtree.py:245-251 | A state whose length is not 2 is refused. Otherwise the tree gets state[0] as its dtype, is rebuilt with 3 dimensions, and the native part receives state[1]. |
| RTreeFront.PickleRoundTripAsWritten | src/pyinterp/rtree.py:242-251 | As written, pickling gives back the same tree exactly when ndims is 3. |
| RTreeFront.GetState | src/pyinterp/rtree.py:242-243 | Corrected state: (dtype, ndims, native state). |
| RTreeFront.SetState | src/pyinterp/rtree.py:245-251 | Corrected: a state is refused unless its length is 3 and its second item is an integer. The tree is rebuilt with the recorded dtype and ndims. |
| RTreeFront.PickleRoundTrip | src/pyinterp/rtree.py:242-251 | Corrected: every tree the constructor builds comes back unchanged. |
| RadialBasis.MemberNamed | src/pyinterp/rtree.py:239 | Attribute lookup on the enumeration finds the member of that name, or fails exactly when no member has it. |
| RadialBasis.DefaultName | src/pyinterp/rtree.py:230 | A missing or empty name becomes the last adjustable name, multiquadric. Any other name is kept. |
| RadialBasis.ListsClassifyFunctions | src/pyinterp/rtree.py:228-229 | The adjustable list holds exactly the functions whose formula uses epsilon; the other list holds the rest. |
| RadialBasis.ListedNamesAreFunctions | src/pyinterp/rtree.py:228-235 | A name passes the list check exactly when it documents one of the six functions. |
| RadialBasis.MangleSelectsMember | src/pyinterp/rtree.py:236-239 | Each documented name mangles to its enumeration member, for example thin_plate to ThinPlate. |
| RadialBasis.MangledNamesDistinct | src/pyinterp/rtree.py:236 | The six names mangle to six distinct identifiers, none containing '_'. |
| RadialBasis.RbfArgumentAsWritten | src/pyinterp/rtree.py:228-239 | As written: an epsilon with an adjustable name is refused, before the name check. An unlisted name is refused. On success the member found is the one the name documents. |
| RadialBasis.RbfArgument | src/pyinterp/rtree.py:228-239 | Corrected: an epsilon with a non-adjustable name is refused, and an unlisted name is refused. The member found is the one the name documents, and an epsilon only reaches a function that uses it. |
| RadialBasis.AsWrittenAcceptsEpsilonOnlyWhereUnused | src/pyinterp/rtree.py:231-233 | As written, when an epsilon is given, exactly the names of functions that do not use it are accepted. |
| RadialBasis.RbfArgumentFixOnlyConcernsEpsilon | src/pyinterp/rtree.py:231-235 | Without an epsilon, the as-written and corrected checks agree on every name. |
| RadialBasis.GaussianEpsilonRefusedAsWritten | src/pyinterp/rtree.py:231-233 | As written, gaussian with any epsilon is refused, although its formula uses epsilon. |
| RadialBasis.CubicEpsilonAcceptedAsWritten | src/pyinterp/rtree.py:231-236 | As written, cubic with any epsilon is accepted, although its formula has no epsilon. |
| RadialBasis.GaussianEpsilonAccepted | src/pyinterp/rtree.py:211-213 | Corrected, gaussian with any epsilon is accepted. |
| RadialBasis.CubicEpsilonRefused | src/pyinterp/rtree.py:231-233 | Corrected, cubic with any epsilon is refused with the message about non-adjustable functions. |
| RadialBasis.RadialBasisFunctionAsWritten | src/pyinterp/rtree.py:228-240 | As written: an epsilon with an adjustable name (or the default) is refused, before an unlisted name is refused. Otherwise the call is passed on. The member passed on is the one the name documents, and every other argument is passed through unchanged. |
| RadialBasis.DefaultIsMultiquadricAsWritten | src/pyinterp/rtree.py:230-233 | As written, with no name given, the multiquadric function is used when no epsilon is given. Any epsilon is refused, with the error naming multiquadric. |
| RadialBasis.RadialBasisFunction | src/pyinterp/rtree.py:228-240 | Corrected: it succeeds exactly when the name, or the default, is listed and no epsilon comes with a non-adjustable name. The member passed on is the one the name documents, and every other argument is passed through unchanged. |
| RadialBasis.DefaultIsMultiquadric | src/pyinterp/rtree.py:230 | Corrected: with no name given, the multiquadric function is used, with or without an epsilon. |

## Left out

- Foreign calls are left out: `core.Axis`, `axis.TemporalAxis`, `DataArray.transpose`, `.values`, the `interpolator.*` functions and everything forwarded to the native `RTree` instance. That covers `bounds`, `clear`, `__len__`, `packing`, `insert`, `query`, `inverse_distance_weighting`, and the numerical part of `radial_basis_function`. Their behaviour is in C++ sources that are not part of this model. The model records the arguments handed to them.
- The pybind11 registrations in `src/pyinterp/core/module/*.cpp` are not modelled. They only instantiate templates whose bodies are not part of this model.
- Floating-point results, `num_threads` parallelism, and the numeric values of coordinates are not modelled. Coordinate values are an opaque type parameter.
- The `cf` module is not part of this model. The unit sets are taken from the docstring of `Grid2D.__init__` (lines 175-182): six longitude units and five latitude units.
- The datetime64 test is a flag on each coordinate. It stands for `"datetime64" in dtype.name`; numpy dtypes are not modelled.
- Python dict iteration order in `_coords` is not modelled, because the decoded tuple follows `dims`. A failing transposition or axis construction is part of the foreign calls.
- `_coords` reports unknown axes as a set, not as the joined message string.
- The model assumes that `data_array.coords[d]` raises KeyError for a dimension `d` that has no coordinate variable. Some xarray versions return a default integer-range coordinate for such a dimension instead. With those versions `Grid3D` and `Grid4D` build a numeric, non-datetime axis where the model reports `MissingCoordinate`. xarray is not part of this model.
- RegularGrid.Call: a clash between `bicubic_kwargs` and the grid method's parameters is reported as the set of clashing names. Python's TypeError names only the first clash.
- A `bicubic_kwargs` that is not a mapping is not modelled, so the `**` TypeError is not either.
- `ndims=None` for `RTree` is not modelled. The TypeError of `None < 3` is Python runtime behaviour outside the validation logic.
- A `dtype` given as a string that numpy would coerce is not modelled. `dtype` is one of float64, float32 or another dtype.
- RTreeFront.NewRTree: which `RTree{n}DFloat…` classes the native module defines is not visible, so the AttributeError of `getattr` for a missing class is not modelled. The model stops at the class name.
- RadialBasis.MemberNamed: the six CamelCase member names of the native `core.RadialBasisFunction` enumeration (Cubic, Gaussian, InverseMultiquadric, Linear, Multiquadric, ThinPlate) are assumed. The C++ declaration of the enumeration is not part of this model, so `MemberNamed` and `MangleSelectsMember` rest on that assumption.
- `str.capitalize` is modelled on ASCII only. Unicode case mapping is left out, and every name the source accepts is ASCII.
- The `system` argument of `RTree` is only handed to the native constructor and is not modelled.
- `tests/core/test_rtree.py` is not modelled. Its assertions depend on NetCDF file I/O, plotting and the native engine.

## Findings

| source | as written | input that shows it | evidently intended | confidence | as-written member | corrected member |
|---|---|---|---|---|---|---|
| src/pyinterp/backends/xarray.py:371 | `self._dims = (x, y, z, u)` is stored before the z/u swap at line 386. Coordinates are decoded in the old order while axes and transposition use the swapped one. | Dims (lon, lat, depth, time) with time datetime64 and set order depth before time. `_dims` is (lon, lat, depth, time) but the third axis is the time axis, so `{depth: 3, time: 4}` passes 3 to the time axis. | Record `self._dims` after the swap, as `(x, y, z, u)` of the swapped names. | high, not executed | Grids.Grid4DAsWritten, RegularGrid.NewInterpolatorAsWritten (RegularGrid.CallArgumentsMatchAxesAsWritten; counterexamples Grids.Grid4DAsWrittenMisordersDims, RegularGrid.CallOnAsWrittenGrid4DMisplacesDepth) | Grids.Grid4D, RegularGrid.NewInterpolator (Grids.Grid4DFixOnlyReordersDims, RegularGrid.InterpolatorFixOnlyReordersDims, RegularGrid.CallArgumentsMatchAxes) |
| src/pyinterp/rtree.py:231 | `epsilon` is refused when `rbf in adjustable`. | `rbf="gaussian", epsilon=1.0` raises ValueError, while `rbf="cubic", epsilon=1.0` is accepted. | Refuse epsilon for the non-adjustable functions, as the message on line 233 and the `epsilon` documentation (lines 211-213) say. | high, not executed | RadialBasis.RbfArgumentAsWritten, RadialBasis.RadialBasisFunctionAsWritten (RadialBasis.AsWrittenAcceptsEpsilonOnlyWhereUnused, RadialBasis.DefaultIsMultiquadricAsWritten, RadialBasis.GaussianEpsilonRefusedAsWritten, RadialBasis.CubicEpsilonAcceptedAsWritten) | RadialBasis.RbfArgument, RadialBasis.RadialBasisFunction (RadialBasis.GaussianEpsilonAccepted, RadialBasis.CubicEpsilonRefused, RadialBasis.DefaultIsMultiquadric) |
| src/pyinterp/rtree.py:242-251 | The state omits `ndims`, and `__setstate__` rebuilds with the default of 3 dimensions. | `RTree(dtype=float64, ndims=4)` pickled and unpickled gets the class `RTree3DFloat64` instead of `RTree4DFloat64`. | Keep `ndims` in the state and rebuild with it. | medium (the native `__setstate__` may instead reject the state), not executed | RTreeFront.SetStateAsWritten (RTreeFront.PickleRoundTripAsWritten) | RTreeFront.SetState (RTreeFront.PickleRoundTrip) |

=== FILE: axis_identifier.dfy ===
/** Identification of the longitude and latitude coordinates of a data array from their
    `units` attribute, and selection of the two leading grid dimensions
    (`AxisIdentifier` and `_dims_from_data_array` of the xarray backend). */
module AxisIdentifier {
  import opened Wrappers
  import opened DataArrays

  /** `name` is the name of the first coordinate, in iteration order, whose units are in `units`. */
  predicate IsFirstWithUnits(coords: seq<Coordinate>, name: string, units: set<string>) {
    exists i :: 0 <= i < |coords| && coords[i].name == name && HasUnitIn(coords[i], units)
      && forall j :: 0 <= j < i ==> !HasUnitIn(coords[j], units)
  }

  /** No coordinate carries one of `units`. */
  predicate NoneWithUnits(coords: seq<Coordinate>, units: set<string>) {
    forall i :: 0 <= i < |coords| ==> !HasUnitIn(coords[i], units)
  }

  /** `_axis`: the loop over `coords.items()` returning the first name whose units match;
      coordinates without a `units` attribute are skipped. */
  function AxisOf(coords: seq<Coordinate>, units: set<string>): (r: Option<string>)
    ensures r.None? <==> NoneWithUnits(coords, units)
    ensures r.Some? ==> IsFirstWithUnits(coords, r.value, units)
  {
    if |coords| == 0 then None
    else if HasUnitIn(coords[0], units) then
      Some(coords[0].name)
    else
      var r := AxisOf(coords[1..], units);
      if r.Some? then
        var i :| 0 <= i < |coords[1..]| && coords[1..][i].name == r.value
          && HasUnitIn(coords[1..][i], units)
          && forall j :: 0 <= j < i ==> !HasUnitIn(coords[1..][j], units);
        assert coords[i + 1].name == r.value && HasUnitIn(coords[i + 1], units);
        assert forall j :: 0 <= j < i + 1 ==> !HasUnitIn(coords[j], units) by {
          forall j | 0 <= j < i + 1
            ensures !HasUnitIn(coords[j], units)
          {
            if j > 0 { assert coords[j] == coords[1..][j - 1]; }
          }
        }
        r
      else
        assert forall j :: 1 <= j < |coords| ==> coords[j] == coords[1..][j - 1];
        r
  }

  /** `AxisIdentifier.longitude`. */
  function Longitude(da: DataArray): (r: Option<string>)
    ensures r.None? <==> NoneWithUnits(da.coords, LongitudeUnits)
    ensures r.Some? ==> IsFirstWithUnits(da.coords, r.value, LongitudeUnits)
  {
    AxisOf(da.coords, LongitudeUnits)
  }

  /** `AxisIdentifier.latitude`. */
  function Latitude(da: DataArray): (r: Option<string>)
    ensures r.None? <==> NoneWithUnits(da.coords, LatitudeUnits)
    ensures r.Some? ==> IsFirstWithUnits(da.coords, r.value, LatitudeUnits)
  {
    AxisOf(da.coords, LatitudeUnits)
  }

  function Min(a: int, b: int): int {
    if a < b then a else b
  }

  /** The two names that lead the grid, when they exist: the first longitude and the first
      latitude coordinates of a geodetic grid, the first two coordinates of a Cartesian one. */
  function LeadingNames(da: DataArray, geodetic: bool): Option<(string, string)> {
    if geodetic then
      if Longitude(da).Some? && Latitude(da).Some? then Some((Longitude(da).value, Latitude(da).value))
      else None
    else if |da.coords| >= 2 then Some((da.coords[0].name, da.coords[1].name))
    else None
  }

  /** `_dims_from_data_array`: the names of the two grid axes that lead the grid, that is
      (longitude, latitude) for a geodetic grid and the first two coordinates otherwise
      (fewer when the array has fewer coordinates, as tuple slicing does). */
  function DimsFromDataArray(da: DataArray, geodetic: bool, ndims: int): (r: Result<seq<string>, XError>)
    // the dimension count is checked first, whatever the coordinates
    ensures |da.dims| != ndims ==> r == Err(DimensionCountMismatch(ndims, |da.dims|))
    ensures r.Ok? ==> |da.dims| == ndims
    // Cartesian grid: a prefix of the coordinate names, never an error
    ensures !geodetic && |da.dims| == ndims ==>
      r.Ok? && r.value <= CoordNames(da.coords) && |r.value| == Min(2, |da.coords|)
    // geodetic grid: a missing longitude is reported before the latitude is looked at
    ensures geodetic && |da.dims| == ndims && NoneWithUnits(da.coords, LongitudeUnits) ==>
      r == Err(NoLongitudeAxis)
    ensures (geodetic && |da.dims| == ndims && !NoneWithUnits(da.coords, LongitudeUnits)
             && NoneWithUnits(da.coords, LatitudeUnits)) ==> r == Err(NoLatitudeAxis)
    ensures geodetic && r.Ok? ==>
      |r.value| == 2 && IsFirstWithUnits(da.coords, r.value[0], LongitudeUnits)
      && IsFirstWithUnits(da.coords, r.value[1], LatitudeUnits)
    ensures (geodetic && |da.dims| == ndims && !NoneWithUnits(da.coords, LongitudeUnits)
             && !NoneWithUnits(da.coords, LatitudeUnits)) ==> r.Ok?
    // the two names, when both exist
    ensures |da.dims| == ndims ==> (r.Ok? && |r.value| == 2 <==> LeadingNames(da, geodetic).Some?)
    ensures r.Ok? && |r.value| == 2 ==>
      r.value == [LeadingNames(da, geodetic).value.0, LeadingNames(da, geodetic).value.1]
  {
    var size := |da.dims|;
    if size != ndims then Err(DimensionCountMismatch(ndims, size))
    else if !geodetic then Ok(CoordNames(da.coords)[..Min(2, |da.coords|)])
    else
      var lon := Longitude(da);
      if lon.None? then Err(NoLongitudeAxis)
      else
        var lat := Latitude(da);
        if lat.None? then Err(NoLatitudeAxis)
        else Ok([lon.value, lat.value])
  }

  /** The longitude and latitude unit sets share no unit, so no coordinate is both. */
  lemma UnitSetsDisjoint()
    ensures LongitudeUnits !! LatitudeUnits
  {
  }

  /** On a well-formed array the two selected names are two different coordinates, so the
      grid never uses one coordinate for both leading axes. */
  lemma {:induction false} LeadingAxesDistinct(da: DataArray, geodetic: bool, ndims: int)
    requires WellFormed(da)
    requires DimsFromDataArray(da, geodetic, ndims).Ok?
    requires |DimsFromDataArray(da, geodetic, ndims).value| == 2
    ensures DimsFromDataArray(da, geodetic, ndims).value[0]
      != DimsFromDataArray(da, geodetic, ndims).value[1]
  {
    var names := DimsFromDataArray(da, geodetic, ndims).value;
    var all := CoordNames(da.coords);
    if geodetic {
      UnitSetsDisjoint();
      var i :| 0 <= i < |da.coords| && da.coords[i].name == names[0]
        && HasUnitIn(da.coords[i], LongitudeUnits)
        && forall j :: 0 <= j < i ==> !HasUnitIn(da.coords[j], LongitudeUnits);
      var k :| 0 <= k < |da.coords| && da.coords[k].name == names[1]
        && HasUnitIn(da.coords[k], LatitudeUnits)
        && forall j :: 0 <= j < k ==> !HasUnitIn(da.coords[j], LatitudeUnits);
      assert i != k;
      assert all[i] == names[0] && all[k] == names[1];
    } else {
      assert names[0] == all[0] && names[1] == all[1];
    }
  }
}

=== FILE: coords.dfy ===
/** `_coords` of the xarray backend: validation of the user's coordinate dictionary and its
    reordering into the tuple of positional arguments of an interpolation function. */
module CoordArgs {
  import opened Wrappers
  import opened DataArrays

  /** The `coords` argument: a dictionary from dimension name to coordinate values, or any
      other Python object. Coordinate values are opaque (`V`). */
  datatype CoordsArg<V> = Dict(entries: map<string, V>) | NotDict

  /** What a successful call produces: the positional arguments, and the caller's dictionary
      as the call leaves it (the time entry is overwritten in place). */
  datatype Decoded<V> = Decoded(args: seq<V>, dict: map<string, V>)

  /** The value passed for dimension `d`: the entry itself, or its cast by the time axis
      when `d` is the grid's datetime64 dimension. */
  function EntryFor<V>(m: map<string, V>, d: string, datetime64: Option<string>, safeCast: V -> V): V
    requires d in m
  {
    if datetime64 == Some(d) then safeCast(m[d]) else m[d]
  }

  lemma {:induction false} ElementsAtMost(s: seq<string>)
    ensures |Elements(s)| <= |s|
    ensures |Elements(s)| == |s| ==> Distinct(s)
  {
    if |s| > 0 {
      ElementsAtMost(s[1..]);
      assert Elements(s) == {s[0]} + Elements(s[1..]);
      if s[0] in s[1..] {
        assert Elements(s) == Elements(s[1..]);
      } else if |Elements(s)| == |s| {
        forall i, j | 0 <= i < j < |s| ensures s[i] != s[j] {
          if i == 0 {
            assert s[j] == s[1..][j - 1];
          } else {
            assert s[i] == s[1..][i - 1] && s[j] == s[1..][j - 1];
          }
        }
      }
    }
  }

  lemma DistinctElements(s: seq<string>)
    ensures Distinct(s) ==> |Elements(s)| == |s|
  {
    if Distinct(s) {
      DistinctSetSize(s);
    }
  }

  /** A set of keys drawn from `dims`, as many as `dims` has entries, is exactly the set of
      dimensions, and then no dimension is repeated. */
  lemma KeysMatchDims(keys: set<string>, dims: seq<string>)
    requires keys <= Elements(dims)
    requires |keys| == |dims|
    ensures keys == Elements(dims)
    ensures Distinct(dims)
  {
    ElementsAtMost(dims);
    var rest := Elements(dims) - keys;
    assert Elements(dims) == keys + rest;
    assert |Elements(dims)| == |keys| + |rest|;
  }

  /** `_coords(coords, dims, datetime64)`. */
  function Coords<V>(arg: CoordsArg<V>, dims: seq<string>, datetime64: Option<string>,
                     safeCast: V -> V): (r: Result<Decoded<V>, XError>)
    // failures, in the order they are checked
    ensures arg.NotDict? ==> r == Err(CoordsNotDict)
    ensures arg.Dict? && |arg.entries| != |dims| ==>
      r == Err(TooManyIndices(|arg.entries|, |dims|))
    ensures arg.Dict? && |arg.entries| == |dims| && !(arg.entries.Keys <= Elements(dims)) ==>
      r == Err(AxesNotHandled(arg.entries.Keys - Elements(dims)))
    // when it succeeds
    ensures r.Ok? <==>
      arg.Dict? && arg.entries.Keys == Elements(dims) && Distinct(dims)
      && (datetime64.Some? ==> datetime64.value in dims)
    ensures r.Ok? ==>
      |r.value.args| == |dims|
      && forall i :: 0 <= i < |dims| ==>
        dims[i] in arg.entries && r.value.args[i] == EntryFor(arg.entries, dims[i], datetime64, safeCast)
    // the caller's dictionary: only the time entry is replaced
    ensures r.Ok? ==>
      r.value.dict.Keys == arg.entries.Keys
      && forall k :: k in arg.entries ==> r.value.dict[k] == EntryFor(arg.entries, k, datetime64, safeCast)
  {
    if arg.NotDict? then Err(CoordsNotDict)
    else
      var m := arg.entries;
      if |m| != |dims| then
        DistinctElements(dims);
        Err(TooManyIndices(|m|, |dims|))
      else
        var unknown := m.Keys - Elements(dims);
        if unknown != {} then
          assert !(m.Keys <= Elements(dims));
          Err(AxesNotHandled(unknown))
        else
          assert m.Keys <= Elements(dims) by {
            forall k | k in m.Keys ensures k in Elements(dims) { assert k !in unknown; }
          }
          KeysMatchDims(m.Keys, dims);
          if datetime64.Some? && datetime64.value !in m then Err(MissingKey(datetime64.value))
          else
            var cast := if datetime64.Some? then m[datetime64.value := safeCast(m[datetime64.value])] else m;
            Ok(Decoded(seq(|dims|, i requires 0 <= i < |dims| => cast[dims[i]]), cast))
  }
}

=== FILE: data_array.dfy ===
/** The slice of an `xarray.DataArray` that the xarray backend inspects: the names of its
    dimensions (the length of `shape` is their count) and its coordinates in iteration order.
    Values of the coordinates are never inspected by the backend, only handed to foreign
    constructors, so they are not part of the model. */
module DataArrays {
  import opened Wrappers

  /** One coordinate variable: its name, its `units` attribute when it has one, and whether
      its dtype name contains "datetime64". */
  datatype Coordinate = Coordinate(name: string, units: Option<string>, isDatetime: bool)

  datatype DataArray = DataArray(dims: seq<string>, coords: seq<Coordinate>)

  /** The exceptions the backend raises, one variant per raise site or Python runtime error. */
  datatype XError =
    | DimensionCountMismatch(ndims: int, found: nat)     // ValueError, number of dimensions
    | NoLongitudeAxis                                     // ValueError, no longitude units
    | NoLatitudeAxis                                      // ValueError, no latitude units
    | IndexOutOfRange(index: nat, length: nat)            // IndexError on a too-short tuple
    | UnpackMismatch(targets: nat, values: nat)         // ValueError, tuple unpacking
    | PopFromEmptySet                                     // KeyError from set.pop()
    | MissingCoordinate(name: string)                     // KeyError from data_array.coords[name]
    | TwoTimeAxes                                         // ValueError, two datetime64 axes
    | CoordsNotDict                                       // TypeError, coords is not a dict
    | TooManyIndices(given: nat, gridDims: nat)         // IndexError, wrong coordinate count
    | AxesNotHandled(unknown: set<string>)                // IndexError naming the unknown axes
    | MissingKey(name: string)                            // KeyError while casting the time axis
    | MultipleValuesForKeywords(names: set<string>)       // TypeError, keywords given twice
    | NotImplementedDims(ndim: nat)                       // NotImplementedError

  /** Units that identify a longitude axis. */
  const LongitudeUnits: set<string> :=
    {"degrees_east", "degree_east", "degree_E", "degrees_E", "degreeE", "degreesE"}

  /** Units that identify a latitude axis. */
  const LatitudeUnits: set<string> :=
    {"degrees_north", "degree_north", "degree_N", "degrees_N", "degreesN"}

  /** True when the coordinate has a `units` attribute that belongs to `units`. */
  predicate HasUnitIn(c: Coordinate, units: set<string>) {
    c.units.Some? && c.units.value in units
  }

  /** No name occurs twice in `s`. */
  predicate Distinct<T(==)>(s: seq<T>) {
    forall i, j :: 0 <= i < j < |s| ==> s[i] != s[j]
  }

  function CoordNames(coords: seq<Coordinate>): (names: seq<string>)
    ensures |names| == |coords|
    ensures forall i :: 0 <= i < |coords| ==> names[i] == coords[i].name
  {
    seq(|coords|, i requires 0 <= i < |coords| => coords[i].name)
  }

  /** What xarray guarantees of every array: dimension names and coordinate names are unique. */
  predicate WellFormed(da: DataArray) {
    Distinct(da.dims) && Distinct(CoordNames(da.coords))
  }

  /** `data_array.coords[name]`: the coordinate called `name`, or None when that lookup
      would raise KeyError. */
  function CoordNamed(coords: seq<Coordinate>, name: string): (r: Option<Coordinate>)
    ensures r.Some? ==> r.value in coords && r.value.name == name
    ensures r.None? <==> forall i :: 0 <= i < |coords| ==> coords[i].name != name
  {
    if |coords| == 0 then None
    else if coords[0].name == name then Some(coords[0])
    else CoordNamed(coords[1..], name)
  }

  /** `set(s)`: the elements of a sequence. */
  function Elements(s: seq<string>): set<string> {
    set d | d in s
  }

  /** `seq(set)` listing: every element of `s` exactly once, in some order. */
  predicate Lists(order: seq<string>, s: set<string>) {
    Distinct(order) && (forall x :: x in order ==> x in s) && (forall x :: x in s ==> x in order)
  }

  /** The elements of `order` other than `x` and `y`, in the same order. */
  function Without(order: seq<string>, x: string, y: string): (r: seq<string>)
    ensures forall d :: d in r <==> d in order && d != x && d != y
    ensures Distinct(order) ==> Distinct(r)
  {
    if |order| == 0 then []
    else if order[0] == x || order[0] == y then Without(order[1..], x, y)
    else
      var rest := Without(order[1..], x, y);
      assert Distinct(order) ==> Distinct(order[1..]) && order[0] !in rest;
      [order[0]] + rest
  }

  lemma DistinctSetSize<T>(s: seq<T>)
    requires Distinct(s)
    ensures |set i | i in s| == |s|
  {
    if |s| > 0 {
      DistinctSetSize(s[1..]);
      assert (set i | i in s) == {s[0]} + (set i | i in s[1..]);
    }
  }
}

=== FILE: grids.dfy ===
/** Construction of `Grid2D`, `Grid3D` and `Grid4D` from a data array in the xarray backend:
    which coordinate each axis is built from, which axis is circular or temporal, the order
    the values are transposed to, and the dimension order kept for decoding coordinates.
    The axes, the transposition and the grid itself are built by foreign code; the model
    records what is handed to it. */
module Grids {
  import opened Wrappers
  import opened DataArrays
  import opened AxisIdentifier

  /** `core.Axis(values, is_circle=...)` or `axis.TemporalAxis(values)`. */
  datatype AxisKind = Numeric(isCircle: bool) | Temporal

  /** An axis and the name of the coordinate whose values build it. */
  datatype GridAxis = GridAxis(source: string, kind: AxisKind)

  /** A grid as the backend builds it: `dims` is `self._dims` (used to decode coordinates),
      `axes` the axes in the order given to the grid constructor, `transposeOrder` the
      argument of `data_array.transpose`, `datetime64` the name of the time dimension, and
      `increasingAxes` whether `increasing_axes='inplace'` is requested. */
  datatype Grid = Grid(dims: seq<string>, axes: seq<GridAxis>, transposeOrder: seq<string>,
                       datetime64: Option<string>, increasingAxes: bool)

  function Sources(axes: seq<GridAxis>): (names: seq<string>)
    ensures |names| == |axes|
    ensures forall i :: 0 <= i < |axes| ==> names[i] == axes[i].source
  {
    seq(|axes|, i requires 0 <= i < |axes| => axes[i].source)
  }

  /** `datetime64` names the coordinate of the temporal axis, and is None when no axis is
      temporal. */
  predicate TimeAxisRecorded(g: Grid) {
    && (g.datetime64.Some? ==> g.datetime64.value in Sources(g.axes))
    && (forall i :: 0 <= i < |g.axes| ==>
          (g.axes[i].kind == Temporal <==> g.datetime64 == Some(g.axes[i].source)))
  }

  /** The three orders agree: coordinates are decoded, values transposed and axes built
      in one and the same dimension order, and the time axis, if any, is the one named by
      `datetime64`. */
  predicate Consistent(g: Grid) {
    && g.dims == Sources(g.axes) == g.transposeOrder
    && TimeAxisRecorded(g)
  }

  /** Only the first (x) axis may be circular, and it is exactly when the grid is geodetic;
      the second (y) axis is always a plain `core.Axis`. */
  predicate OnlyXCircular(g: Grid, geodetic: bool) {
    && |g.axes| >= 1
    && g.axes[0].kind == Numeric(geodetic)
    && (|g.axes| >= 2 ==> g.axes[1].kind == Numeric(false))
    && forall i :: 1 <= i < |g.axes| ==> g.axes[i].kind != Numeric(true)
  }

  /** The coordinate called `name` is a datetime64 coordinate. */
  predicate IsTimeCoordinate(da: DataArray, name: string) {
    var c := CoordNamed(da.coords, name);
    c.Some? && c.value.isDatetime
  }

  /** `set(data_array.dims) - {x, y}`: the dimensions left for z (and u) once the leading
      names x and y are chosen. */
  function OtherDims(da: DataArray, geodetic: bool): set<string>
    requires LeadingNames(da, geodetic).Some?
  {
    Others(da, LeadingNames(da, geodetic).value.0, LeadingNames(da, geodetic).value.1)
  }

  function Others(da: DataArray, x: string, y: string): set<string> {
    Elements(da.dims) - {x, y}
  }

  /** Every name in `names` is found by `data_array.coords[name]`. */
  predicate HaveCoordinates(da: DataArray, names: set<string>) {
    forall d :: d in names ==> CoordNamed(da.coords, d).Some?
  }

  /** `Grid2D.__init__`. */
  function Grid2D(da: DataArray, increasingAxes: bool, geodetic: bool): (r: Result<Grid, XError>)
    ensures |da.dims| != 2 ==> r == Err(DimensionCountMismatch(2, |da.dims|))
    // a 2-D array is accepted exactly when its two leading names exist
    ensures |da.dims| == 2 ==> (r.Ok? <==> LeadingNames(da, geodetic).Some?)
    ensures (geodetic && |da.dims| == 2 && NoneWithUnits(da.coords, LongitudeUnits)) ==>
      r == Err(NoLongitudeAxis)
    ensures (geodetic && |da.dims| == 2 && !NoneWithUnits(da.coords, LongitudeUnits)
             && NoneWithUnits(da.coords, LatitudeUnits)) ==> r == Err(NoLatitudeAxis)
    ensures (!geodetic && |da.dims| == 2 && |da.coords| < 2) ==>
      r == Err(IndexOutOfRange(|da.coords|, |da.coords|))
    ensures r.Ok? ==>
      r.value.dims == [LeadingNames(da, geodetic).value.0, LeadingNames(da, geodetic).value.1]
    ensures r.Ok? ==>
      && |r.value.axes| == 2 && Consistent(r.value) && OnlyXCircular(r.value, geodetic)
      && r.value.datetime64.None? && r.value.increasingAxes == increasingAxes
    ensures r.Ok? && geodetic ==>
      && IsFirstWithUnits(da.coords, r.value.axes[0].source, LongitudeUnits)
      && IsFirstWithUnits(da.coords, r.value.axes[1].source, LatitudeUnits)
    ensures r.Ok? && !geodetic ==>
      r.value.dims == [da.coords[0].name, da.coords[1].name]
  {
    var dims :- DimsFromDataArray(da, geodetic, 2);
    if |dims| < 1 then Err(IndexOutOfRange(0, |dims|))
    else if |dims| < 2 then Err(IndexOutOfRange(1, |dims|))
    else
      var axes := [GridAxis(dims[0], Numeric(geodetic)), GridAxis(dims[1], Numeric(false))];
      assert Sources(axes) == dims;
      Ok(Grid(dims, axes, dims, None, increasingAxes))
  }

  /** `Grid3D.__init__`. `setOrder` is the iteration order of `set(data_array.dims)`; the
      third dimension is some dimension left by `(set(dims) - {x, y}).pop()`, and every
      property holds whichever one is taken. */
  function Grid3D(da: DataArray, increasingAxes: bool, geodetic: bool, setOrder: seq<string>)
    : (r: Result<Grid, XError>)
    requires Lists(setOrder, Elements(da.dims))
    ensures |da.dims| != 3 ==> r == Err(DimensionCountMismatch(3, |da.dims|))
    // failures of `_dims_from_data_array` and of the unpacking of its result
    ensures (geodetic && |da.dims| == 3 && NoneWithUnits(da.coords, LongitudeUnits)) ==>
      r == Err(NoLongitudeAxis)
    ensures (geodetic && |da.dims| == 3 && !NoneWithUnits(da.coords, LongitudeUnits)
             && NoneWithUnits(da.coords, LatitudeUnits)) ==> r == Err(NoLatitudeAxis)
    ensures (!geodetic && |da.dims| == 3 && |da.coords| < 2) ==>
      r == Err(UnpackMismatch(2, |da.coords|))
    // `pop` fails exactly when no dimension is left; a missing coordinate is one of those left
    ensures |da.dims| == 3 && LeadingNames(da, geodetic).Some? ==>
      (r == Err(PopFromEmptySet) <==> OtherDims(da, geodetic) == {})
    ensures r.Err? && r.error.MissingCoordinate? ==>
      && LeadingNames(da, geodetic).Some? && r.error.name in OtherDims(da, geodetic)
      && CoordNamed(da.coords, r.error.name).None?
    // accepted whenever a dimension is left and every one left has a coordinate
    ensures (|da.dims| == 3 && LeadingNames(da, geodetic).Some? && OtherDims(da, geodetic) != {}
             && HaveCoordinates(da, OtherDims(da, geodetic))) ==> r.Ok?
    ensures r.Ok? ==>
      && |r.value.dims| == |r.value.axes| == 3 && Consistent(r.value) && OnlyXCircular(r.value, geodetic)
      && r.value.increasingAxes == increasingAxes
    ensures r.Ok? ==>
      DimsFromDataArray(da, geodetic, 3).Ok? && r.value.dims[..2] == DimsFromDataArray(da, geodetic, 3).value
    // z is a dimension of the array other than x and y
    ensures r.Ok? ==>
      r.value.dims[2] in Elements(da.dims) - {r.value.dims[0], r.value.dims[1]}
    // the third axis is temporal exactly when its coordinate is a datetime64 one
    ensures r.Ok? ==>
      (r.value.axes[2].kind == Temporal <==> IsTimeCoordinate(da, r.value.dims[2]))
    ensures r.Ok? ==> CoordNamed(da.coords, r.value.dims[2]).Some?
  {
    var xy :- DimsFromDataArray(da, geodetic, 3);
    if |xy| != 2 then Err(UnpackMismatch(2, |xy|))
    else Grid3DFrom(da, xy[0], xy[1], increasingAxes, geodetic, setOrder)
  }

  /** Lines 275-290 of `Grid3D.__init__`, once x and y are known. */
  function Grid3DFrom(da: DataArray, x: string, y: string, increasingAxes: bool, geodetic: bool,
                      setOrder: seq<string>): (r: Result<Grid, XError>)
    requires Lists(setOrder, Elements(da.dims))
    ensures r == Err(PopFromEmptySet) <==> Others(da, x, y) == {}
    ensures r.Err? ==>
      || r == Err(PopFromEmptySet)
      || (r.error.MissingCoordinate? && r.error.name in Others(da, x, y)
          && CoordNamed(da.coords, r.error.name).None?)
    ensures Others(da, x, y) != {} && HaveCoordinates(da, Others(da, x, y)) ==> r.Ok?
    ensures r.Ok? ==>
      && |r.value.dims| == |r.value.axes| == 3 && Consistent(r.value) && OnlyXCircular(r.value, geodetic)
      && r.value.increasingAxes == increasingAxes
      && r.value.dims[..2] == [x, y] && r.value.dims[2] in Others(da, x, y)
      && (r.value.axes[2].kind == Temporal <==> IsTimeCoordinate(da, r.value.dims[2]))
    // the grid is built only when the popped dimension has a coordinate
    ensures r.Ok? ==> CoordNamed(da.coords, r.value.dims[2]).Some?
  {
    var rest := Without(setOrder, x, y);
    if |rest| == 0 then
      assert forall d :: d in Others(da, x, y) ==> d in rest;
      Err(PopFromEmptySet)
    else
      var z := rest[0];
      assert z in rest && z in setOrder;
      assert z in Others(da, x, y);
      var zc := CoordNamed(da.coords, z);
      if zc.None? then Err(MissingCoordinate(z))
      else Ok(Grid3DOf(x, y, z, geodetic, zc.value.isDatetime, increasingAxes))
  }

  /** The grid `Grid3D.__init__` builds once x, y and z are chosen: z temporal when its
      coordinate is datetime64. */
  function Grid3DOf(x: string, y: string, z: string, geodetic: bool, zTime: bool, increasingAxes: bool)
    : (g: Grid)
    requires z != x && z != y
    ensures g.dims == [x, y, z] && |g.axes| == 3 && g.increasingAxes == increasingAxes
    ensures Consistent(g) && OnlyXCircular(g, geodetic)
    ensures g.axes[2].kind == Temporal <==> zTime
  {
    var axes := [GridAxis(x, Numeric(geodetic)), GridAxis(y, Numeric(false)),
                 GridAxis(z, if zTime then Temporal else Numeric(false))];
    assert Sources(axes) == [x, y, z];
    Grid([x, y, z], axes, [x, y, z], if zTime then Some(z) else None, increasingAxes)
  }

  /** The choices `Grid4D.__init__` makes before building anything: the leading names, the
      two remaining dimensions in set order (`z0`, `u0`), and which of them is temporal. */
  datatype Selection4D = Selection4D(x: string, y: string, z0: string, u0: string,
                                     zTime: bool, uTime: bool)
  {
    /** Only `u` is temporal, so `z` and `u` swap roles. */
    predicate Swapped() {
      !zTime && uTime
    }

    function Z(): string {
      if Swapped() then u0 else z0
    }

    function U(): string {
      if Swapped() then z0 else u0
    }

    /** What every selection `Select4D` returns satisfies. */
    predicate WellChosen() {
      && z0 != u0 && z0 != x && z0 != y && u0 != x && u0 != y
      && !(zTime && uTime)
    }
  }

  /** A four-dimensional array whose leading names exist, with exactly two dimensions left,
      each with a coordinate. */
  predicate Grid4DInputs(da: DataArray, geodetic: bool) {
    && |da.dims| == 4 && LeadingNames(da, geodetic).Some?
    && |OtherDims(da, geodetic)| == 2 && HaveCoordinates(da, OtherDims(da, geodetic))
  }

  /** Every dimension in `names` has a datetime64 coordinate. */
  predicate AllTimeCoordinates(da: DataArray, names: set<string>) {
    forall d :: d in names ==> IsTimeCoordinate(da, d)
  }

  /** Lines 369-386 of `Grid4D.__init__`, up to the swap. */
  function Select4D(da: DataArray, geodetic: bool, setOrder: seq<string>)
    : (r: Result<Selection4D, XError>)
    requires Lists(setOrder, Elements(da.dims))
    ensures |da.dims| != 4 ==> r == Err(DimensionCountMismatch(4, |da.dims|))
    // failures of `_dims_from_data_array` and of the unpacking of its result
    ensures (geodetic && |da.dims| == 4 && NoneWithUnits(da.coords, LongitudeUnits)) ==>
      r == Err(NoLongitudeAxis)
    ensures (geodetic && |da.dims| == 4 && !NoneWithUnits(da.coords, LongitudeUnits)
             && NoneWithUnits(da.coords, LatitudeUnits)) ==> r == Err(NoLatitudeAxis)
    ensures (!geodetic && |da.dims| == 4 && |da.coords| < 2) ==>
      r == Err(UnpackMismatch(2, |da.coords|))
    // `z, u = tuple(...)` fails exactly when not two dimensions are left
    ensures |da.dims| == 4 && LeadingNames(da, geodetic).Some? ==>
      && (r.Err? && r.error.UnpackMismatch? <==> |OtherDims(da, geodetic)| != 2)
      && (r.Err? && r.error.UnpackMismatch? ==> r.error == UnpackMismatch(2, |OtherDims(da, geodetic)|))
    ensures r.Err? && r.error.MissingCoordinate? ==>
      && LeadingNames(da, geodetic).Some? && r.error.name in OtherDims(da, geodetic)
      && CoordNamed(da.coords, r.error.name).None?
    // with two dimensions left, both with coordinates: refused exactly when both are times
    ensures Grid4DInputs(da, geodetic) ==>
      && (r.Ok? <==> !AllTimeCoordinates(da, OtherDims(da, geodetic)))
      && (r.Err? ==> r == Err(TwoTimeAxes))
    ensures r.Ok? ==>
      DimsFromDataArray(da, geodetic, 4).Ok? && [r.value.x, r.value.y] == DimsFromDataArray(da, geodetic, 4).value
    // z and u are exactly the dimensions other than x and y
    ensures r.Ok? ==> {r.value.z0, r.value.u0} == Elements(da.dims) - {r.value.x, r.value.y}
    ensures r.Ok? ==>
      && r.value.zTime == IsTimeCoordinate(da, r.value.z0)
      && r.value.uTime == IsTimeCoordinate(da, r.value.u0)
    // two datetime64 axes are refused
    ensures r.Ok? ==> r.value.WellChosen()
    // the selection is made only when z and u both have coordinates
    ensures r.Ok? ==> HaveCoordinates(da, {r.value.z0, r.value.u0})
  {
    var xy :- DimsFromDataArray(da, geodetic, 4);
    if |xy| != 2 then Err(UnpackMismatch(2, |xy|))
    else Select4DFrom(da, xy[0], xy[1], setOrder)
  }

  /** Lines 370-386 of `Grid4D.__init__`, once x and y are known. */
  function Select4DFrom(da: DataArray, x: string, y: string, setOrder: seq<string>)
    : (r: Result<Selection4D, XError>)
    requires Lists(setOrder, Elements(da.dims))
    ensures r.Err? && r.error.UnpackMismatch? <==> |Others(da, x, y)| != 2
    ensures r.Err? && r.error.UnpackMismatch? ==> r.error == UnpackMismatch(2, |Others(da, x, y)|)
    ensures r.Err? && r.error.MissingCoordinate? ==>
      r.error.name in Others(da, x, y) && CoordNamed(da.coords, r.error.name).None?
    ensures |Others(da, x, y)| == 2 && HaveCoordinates(da, Others(da, x, y)) ==>
      && (r.Ok? <==> !AllTimeCoordinates(da, Others(da, x, y)))
      && (r.Err? ==> r == Err(TwoTimeAxes))
    // z and u are exactly the dimensions other than x and y
    ensures r.Ok? ==> r.value.x == x && r.value.y == y
    ensures r.Ok? ==> {r.value.z0, r.value.u0} == Others(da, x, y) && r.value.z0 != r.value.u0
    ensures r.Ok? ==>
      && r.value.zTime == IsTimeCoordinate(da, r.value.z0)
      && r.value.uTime == IsTimeCoordinate(da, r.value.u0)
    // two datetime64 axes are refused
    ensures r.Ok? ==> !(r.value.zTime && r.value.uTime)
    ensures r.Ok? ==> r.value.WellChosen()
    // the selection is made only when z and u both have coordinates
    ensures r.Ok? ==> HaveCoordinates(da, {r.value.z0, r.value.u0})
  {
    var rest := Without(setOrder, x, y);
    WithoutSize(setOrder, Elements(da.dims), x, y);
    if |rest| != 2 then Err(UnpackMismatch(2, |rest|))
    else
      TwoLeft(rest, Others(da, x, y));
      Pick4D(da, x, y, rest[0], rest[1])
  }

  /** Lines 373-386 of `Grid4D.__init__`: the coordinates of z and u are looked up, in that
      order, and at most one of them may be a datetime64 one. */
  function Pick4D(da: DataArray, x: string, y: string, z: string, u: string)
    : (r: Result<Selection4D, XError>)
    ensures r.Err? ==> r.error.MissingCoordinate? || r == Err(TwoTimeAxes)
    // z is looked up first, and a missing coordinate raises KeyError
    ensures CoordNamed(da.coords, z).None? ==> r == Err(MissingCoordinate(z))
    ensures CoordNamed(da.coords, z).Some? && CoordNamed(da.coords, u).None? ==>
      r == Err(MissingCoordinate(u))
    ensures CoordNamed(da.coords, z).Some? && CoordNamed(da.coords, u).Some? ==>
      (r.Ok? <==> !(IsTimeCoordinate(da, z) && IsTimeCoordinate(da, u)))
    ensures r.Ok? ==>
      && r.value == Selection4D(x, y, z, u, IsTimeCoordinate(da, z), IsTimeCoordinate(da, u))
      && !(r.value.zTime && r.value.uTime)
  {
    var zc := CoordNamed(da.coords, z);
    if zc.None? then Err(MissingCoordinate(z))
    else
      var uc := CoordNamed(da.coords, u);
      if uc.None? then Err(MissingCoordinate(u))
      else if zc.value.isDatetime && uc.value.isDatetime then Err(TwoTimeAxes)
      else Ok(Selection4D(x, y, z, u, zc.value.isDatetime, uc.value.isDatetime))
  }

  /** A two-element listing of a set is the set. */
  lemma TwoLeft(rest: seq<string>, others: set<string>)
    requires |rest| == 2 && forall d :: d in rest <==> d in others
    ensures others == {rest[0], rest[1]}
  {
    assert rest == [rest[0], rest[1]];
    forall d | d in others ensures d in {rest[0], rest[1]} {
      assert d in rest;
    }
  }

  /** Listing a set once each and dropping x and y leaves as many names as the set has
      elements other than x and y. */
  lemma WithoutSize(order: seq<string>, s: set<string>, x: string, y: string)
    requires Lists(order, s)
    ensures |Without(order, x, y)| == |s - {x, y}|
  {
    var rest := Without(order, x, y);
    DistinctSetSize(rest);
    assert (set d | d in rest) == s - {x, y};
  }

  /** The axes `Grid4D.__init__` builds from a selection: x circular when geodetic, the time
      axis (if any) third. */
  function Axes4D(s: Selection4D, geodetic: bool): (axes: seq<GridAxis>)
    ensures Sources(axes) == [s.x, s.y, s.Z(), s.U()]
    ensures s.WellChosen() ==>
      var g := Grid(Sources(axes), axes, Sources(axes), TimeDim(s), false);
      Consistent(g) && OnlyXCircular(g, geodetic) && axes[3].kind == Numeric(false)
      && (axes[2].kind == Temporal <==> s.zTime || s.uTime)
  {
    [GridAxis(s.x, Numeric(geodetic)), GridAxis(s.y, Numeric(false)),
     GridAxis(s.Z(), if s.zTime || s.uTime then Temporal else Numeric(false)),
     GridAxis(s.U(), Numeric(false))]
  }

  function TimeDim(s: Selection4D): Option<string> {
    if s.zTime then Some(s.z0) else if s.uTime then Some(s.u0) else None
  }

  /** `Grid4D.__init__` as written: `self._dims` keeps the order recorded before the swap. */
  function Grid4DAsWritten(da: DataArray, increasingAxes: bool, geodetic: bool, setOrder: seq<string>)
    : (r: Result<Grid, XError>)
    requires Lists(setOrder, Elements(da.dims))
    ensures |da.dims| != 4 ==> r == Err(DimensionCountMismatch(4, |da.dims|))
    // it fails exactly as the selection does
    ensures r.Ok? <==> Select4D(da, geodetic, setOrder).Ok?
    ensures r.Err? ==> r.error == Select4D(da, geodetic, setOrder).error
    ensures r.Ok? ==>
      && |r.value.dims| == |r.value.axes| == 4 && Sources(r.value.axes) == r.value.transposeOrder
      && Elements(r.value.dims) == Elements(r.value.transposeOrder)
      && r.value.dims[..2] == r.value.transposeOrder[..2]
      && TimeAxisRecorded(r.value) && OnlyXCircular(r.value, geodetic)
      && r.value.increasingAxes == increasingAxes
    // only the third axis may be temporal
    ensures r.Ok? ==> r.value.axes[3].kind == Numeric(false)
  {
    var s :- Select4D(da, geodetic, setOrder);
    var axes := Axes4D(s, geodetic);
    Ok(Grid([s.x, s.y, s.z0, s.u0], axes, Sources(axes), TimeDim(s), increasingAxes))
  }

  /** `Grid4D.__init__` with `self._dims` recorded after the swap, so that coordinates are
      decoded in the order of the axes. */
  function Grid4D(da: DataArray, increasingAxes: bool, geodetic: bool, setOrder: seq<string>)
    : (r: Result<Grid, XError>)
    requires Lists(setOrder, Elements(da.dims))
    ensures |da.dims| != 4 ==> r == Err(DimensionCountMismatch(4, |da.dims|))
    // it fails exactly as the selection does
    ensures r.Ok? <==> Select4D(da, geodetic, setOrder).Ok?
    ensures r.Err? ==> r.error == Select4D(da, geodetic, setOrder).error
    ensures r.Ok? ==>
      && |r.value.axes| == 4 && Consistent(r.value) && OnlyXCircular(r.value, geodetic)
      && r.value.increasingAxes == increasingAxes
    ensures r.Ok? ==>
      && DimsFromDataArray(da, geodetic, 4).Ok? && r.value.dims[..2] == DimsFromDataArray(da, geodetic, 4).value
      && r.value.dims[2] != r.value.dims[3]
    // z and u are exactly the dimensions other than x and y
    ensures r.Ok? ==>
      {r.value.dims[2], r.value.dims[3]} == Elements(da.dims) - {r.value.dims[0], r.value.dims[1]}
    // at most one time axis, and it is always the third one
    ensures r.Ok? ==> r.value.axes[3].kind == Numeric(false) && !IsTimeCoordinate(da, r.value.dims[3])
    ensures r.Ok? ==> (r.value.axes[2].kind == Temporal <==> IsTimeCoordinate(da, r.value.dims[2]))
  {
    var s :- Select4D(da, geodetic, setOrder);
    Ok(Grid4DOf(da, s, geodetic, increasingAxes))
  }

  /** The grid the corrected `Grid4D` builds from a selection: every order is (x, y, Z, U). */
  function Grid4DOf(da: DataArray, s: Selection4D, geodetic: bool, increasingAxes: bool): (g: Grid)
    requires s.WellChosen()
    requires s.zTime == IsTimeCoordinate(da, s.z0) && s.uTime == IsTimeCoordinate(da, s.u0)
    ensures g.dims == [s.x, s.y, s.Z(), s.U()] && |g.axes| == 4 && g.increasingAxes == increasingAxes
    ensures Consistent(g) && OnlyXCircular(g, geodetic) && g.axes[3].kind == Numeric(false)
    ensures {g.dims[2], g.dims[3]} == {s.z0, s.u0} && g.dims[2] != g.dims[3]
    ensures !IsTimeCoordinate(da, g.dims[3])
    ensures g.axes[2].kind == Temporal <==> IsTimeCoordinate(da, g.dims[2])
  {
    var axes := Axes4D(s, geodetic);
    assert s.Swapped() ==> s.Z() == s.u0 && s.U() == s.z0;
    Grid(Sources(axes), axes, Sources(axes), TimeDim(s), increasingAxes)
  }

  /** In a grid whose x and y axes are plain or circular and whose axes after the third are
      not temporal, the recorded time dimension is the third axis' coordinate when that
      axis is temporal, and None otherwise. */
  lemma TimeAxisIsThird(g: Grid, geodetic: bool)
    requires TimeAxisRecorded(g) && OnlyXCircular(g, geodetic) && |g.axes| >= 3
    requires forall i :: 3 <= i < |g.axes| ==> g.axes[i].kind != Temporal
    ensures g.datetime64.Some? <==> g.axes[2].kind == Temporal
    ensures g.datetime64.Some? ==> g.datetime64 == Some(g.axes[2].source)
  {
    if g.datetime64.Some? {
      var i :| 0 <= i < |g.axes| && Sources(g.axes)[i] == g.datetime64.value;
      assert g.axes[i].kind == Temporal;
    }
  }

  /** On a well-formed array each grid names every dimension once. */
  lemma {:induction false} Grid2DDimsDistinct(da: DataArray, increasingAxes: bool, geodetic: bool)
    requires WellFormed(da)
    requires Grid2D(da, increasingAxes, geodetic).Ok?
    ensures Distinct(Grid2D(da, increasingAxes, geodetic).value.dims)
  {
    LeadingAxesDistinct(da, geodetic, 2);
  }

  lemma {:induction false} Grid3DDimsDistinct(da: DataArray, increasingAxes: bool, geodetic: bool,
                                              setOrder: seq<string>)
    requires WellFormed(da)
    requires Lists(setOrder, Elements(da.dims))
    requires Grid3D(da, increasingAxes, geodetic, setOrder).Ok?
    ensures Distinct(Grid3D(da, increasingAxes, geodetic, setOrder).value.dims)
  {
    var dims := Grid3D(da, increasingAxes, geodetic, setOrder).value.dims;
    LeadingAxesDistinct(da, geodetic, 3);
    assert dims[0] == dims[..2][0] && dims[1] == dims[..2][1];
  }

  lemma {:induction false} Grid4DDimsDistinct(da: DataArray, increasingAxes: bool, geodetic: bool,
                                              setOrder: seq<string>)
    requires WellFormed(da)
    requires Lists(setOrder, Elements(da.dims))
    requires Grid4D(da, increasingAxes, geodetic, setOrder).Ok?
    ensures Distinct(Grid4D(da, increasingAxes, geodetic, setOrder).value.dims)
  {
    var dims := Grid4D(da, increasingAxes, geodetic, setOrder).value.dims;
    LeadingAxesDistinct(da, geodetic, 4);
    assert dims[0] == dims[..2][0] && dims[1] == dims[..2][1];
    assert dims[2] in {dims[2], dims[3]} && dims[3] in {dims[2], dims[3]};
    DistinctFour(dims);
  }

  lemma DistinctFour(a: seq<string>)
    requires |a| == 4 && a[0] != a[1] && a[2] != a[3]
    requires a[2] != a[0] && a[2] != a[1] && a[3] != a[0] && a[3] != a[1]
    ensures Distinct(a)
  {
  }

  /** When exactly two dimensions are left and both have coordinates, the 4-D grid is built,
      as written and corrected alike, unless both are datetime64 coordinates, and then
      "unable to handle two time axes" is raised. */
  lemma Grid4DAcceptance(da: DataArray, increasingAxes: bool, geodetic: bool, setOrder: seq<string>)
    requires Lists(setOrder, Elements(da.dims))
    requires Grid4DInputs(da, geodetic)
    ensures var r := Grid4D(da, increasingAxes, geodetic, setOrder);
      && (r.Ok? <==> !AllTimeCoordinates(da, OtherDims(da, geodetic)))
      && (r.Err? ==> r == Err(TwoTimeAxes))
    ensures var r := Grid4DAsWritten(da, increasingAxes, geodetic, setOrder);
      && (r.Ok? <==> !AllTimeCoordinates(da, OtherDims(da, geodetic)))
      && (r.Err? ==> r == Err(TwoTimeAxes))
  {
  }

  /** Set-size facts used below: removing two distinct members of a set of size n leaves n - 2. */
  lemma RemoveTwo(a: set<string>, x: string, y: string)
    requires x in a && y in a && x != y
    ensures |a - {x, y}| == |a| - 2
  {
    assert a == (a - {x, y}) + {x, y};
  }

  lemma SingletonOf(a: set<string>, z: string)
    requires z in a && |a| == 1
    ensures a == {z}
  {
    assert |a - {z}| == 0;
  }

  /** On a well-formed three-dimensional array whose leading axes are dimensions, the third
      axis of a `Grid3D` is exactly the one remaining dimension, whatever the set order. */
  lemma {:induction false} Grid3DThirdIsTheOtherDim(da: DataArray, increasingAxes: bool, geodetic: bool,
                                                    setOrder: seq<string>)
    requires WellFormed(da) && Lists(setOrder, Elements(da.dims))
    requires Grid3D(da, increasingAxes, geodetic, setOrder).Ok?
    requires var g := Grid3D(da, increasingAxes, geodetic, setOrder).value;
      g.dims[0] in da.dims && g.dims[1] in da.dims
    ensures var g := Grid3D(da, increasingAxes, geodetic, setOrder).value;
      {g.dims[2]} == Elements(da.dims) - {g.dims[0], g.dims[1]}
  {
    var g := Grid3D(da, increasingAxes, geodetic, setOrder).value;
    LeadingAxesDistinct(da, geodetic, 3);
    assert g.dims[0] != g.dims[1];
    DistinctSetSize(da.dims);
    assert Elements(da.dims) == set i | i in da.dims;
    RemoveTwo(Elements(da.dims), g.dims[0], g.dims[1]);
    SingletonOf(Elements(da.dims) - {g.dims[0], g.dims[1]}, g.dims[2]);
  }

  /** On a well-formed three-dimensional array a dimension is always left for z, so `pop`
      never fails. */
  lemma Grid3DLeavesThirdDim(da: DataArray, geodetic: bool)
    requires WellFormed(da) && |da.dims| == 3 && LeadingNames(da, geodetic).Some?
    ensures OtherDims(da, geodetic) != {}
  {
    var x, y := LeadingNames(da, geodetic).value.0, LeadingNames(da, geodetic).value.1;
    assert da.dims[0] != da.dims[1] && da.dims[0] != da.dims[2] && da.dims[1] != da.dims[2];
    assert OtherDims(da, geodetic) == Elements(da.dims) - {x, y};
    var i := if da.dims[0] != x && da.dims[0] != y then 0
             else if da.dims[1] != x && da.dims[1] != y then 1
             else 2;
    assert da.dims[i] in Elements(da.dims) - {x, y};
  }

  /** On a well-formed four-dimensional array whose leading names are dimensions, exactly two
      dimensions are left, so the unpacking `z, u = tuple(...)` always succeeds. */
  lemma {:induction false} Select4DUnpacks(da: DataArray, geodetic: bool, setOrder: seq<string>)
    requires WellFormed(da) && Lists(setOrder, Elements(da.dims)) && |da.dims| == 4
    requires LeadingNames(da, geodetic).Some?
    requires LeadingNames(da, geodetic).value.0 in da.dims && LeadingNames(da, geodetic).value.1 in da.dims
    ensures |OtherDims(da, geodetic)| == 2
    ensures !Select4D(da, geodetic, setOrder).Err?
      || !Select4D(da, geodetic, setOrder).error.UnpackMismatch?
  {
    var xy := DimsFromDataArray(da, geodetic, 4).value;
    LeadingAxesDistinct(da, geodetic, 4);
    DistinctSetSize(da.dims);
    assert Elements(da.dims) == set i | i in da.dims;
    RemoveTwo(Elements(da.dims), xy[0], xy[1]);
  }

  /** The corrected `Grid4D` succeeds and fails exactly when the code as written does, builds
      the same axes, transposition and time axis, and differs only in `dims`; the two `dims`
      differ exactly when `u` is the time axis, which is when the swap happens. */
  lemma {:induction false} Grid4DFixOnlyReordersDims(da: DataArray, increasingAxes: bool, geodetic: bool,
                                                     setOrder: seq<string>)
    requires Lists(setOrder, Elements(da.dims))
    ensures var w := Grid4DAsWritten(da, increasingAxes, geodetic, setOrder);
            var c := Grid4D(da, increasingAxes, geodetic, setOrder);
      && (w.Ok? <==> c.Ok?)
      && (w.Err? ==> w == c)
      && (w.Ok? ==>
            && c.value == w.value.(dims := c.value.dims)
            && (w.value.dims != c.value.dims <==> IsTimeCoordinate(da, w.value.dims[3])))
  {
    var s := Select4D(da, geodetic, setOrder);
    if s.Ok? {
      var sel := s.value;
      var w := Grid4DAsWritten(da, increasingAxes, geodetic, setOrder).value;
      var c := Grid4D(da, increasingAxes, geodetic, setOrder).value;
      assert w.dims == [sel.x, sel.y, sel.z0, sel.u0];
      assert c.dims == [sel.x, sel.y, sel.Z(), sel.U()];
      if sel.Swapped() {
        assert w.dims[2] != c.dims[2];
      }
    }
  }

  /** Dimensions (lon, lat, depth, time) with a datetime64 time coordinate. */
  const ExampleArray := DataArray(["lon", "lat", "depth", "time"],
                                  [Coordinate("lon", Some("degrees_east"), false),
                                   Coordinate("lat", Some("degrees_north"), false),
                                   Coordinate("depth", None, false),
                                   Coordinate("time", None, true)])

  /** An iteration order of `set(dims)` in which `depth` comes before `time`. */
  const ExampleOrder: seq<string> := ["lon", "lat", "depth", "time"]

  /** On `ExampleArray` the leading axes are (lon, lat). */
  lemma ExampleLeadingDims()
    ensures DimsFromDataArray(ExampleArray, true, 4) == Ok(["lon", "lat"])
  {
    var da := ExampleArray;
    assert da.coords[0].units.value in LongitudeUnits;
    assert AxisOf(da.coords, LongitudeUnits) == Some("lon");
    assert !HasUnitIn(da.coords[0], LatitudeUnits);
    assert AxisOf(da.coords[1..], LatitudeUnits) == Some("lat");
    assert AxisOf(da.coords, LatitudeUnits) == Some("lat");
  }

  /** `ExampleOrder` lists the dimensions of `ExampleArray` once each. */
  lemma ExampleOrderLists()
    ensures Lists(ExampleOrder, Elements(ExampleArray.dims))
  {
    assert Elements(ExampleArray.dims) == {"lon", "lat", "depth", "time"};
    assert Distinct(ExampleOrder);
  }

  lemma ExampleRemainingDims()
    ensures Without(ExampleOrder, "lon", "lat") == ["depth", "time"]
  {
    var o := ExampleOrder;
    assert Without(o[3..], "lon", "lat") == ["time"];
    assert Without(o[2..], "lon", "lat") == ["depth", "time"];
  }

  /** With `ExampleOrder`, z is depth, u is time, and only u is temporal. */
  lemma ExampleSelection()
    ensures Lists(ExampleOrder, Elements(ExampleArray.dims))
    ensures Select4D(ExampleArray, true, ExampleOrder) == Ok(Selection4D("lon", "lat", "depth", "time", false, true))
  {
    var da := ExampleArray;
    ExampleOrderLists();
    ExampleRemainingDims();
    ExampleLeadingDims();
    assert CoordNamed(da.coords, "depth") == Some(da.coords[2]);
    assert CoordNamed(da.coords, "time") == Some(da.coords[3]);
  }

  /** Counterexample: on `ExampleArray` with `ExampleOrder` the code as written builds the
      time axis third but keeps `depth` third in `dims`, so the depth coordinates are
      decoded into the position of the time axis. */
  lemma Grid4DAsWrittenMisordersDims()
    ensures Lists(ExampleOrder, Elements(ExampleArray.dims))
    ensures var g := Grid4DAsWritten(ExampleArray, false, true, ExampleOrder);
      && g.Ok? && g.value.dims == ["lon", "lat", "depth", "time"]
      && g.value.axes[2] == GridAxis("time", Temporal) && g.value.datetime64 == Some("time")
      && !Consistent(g.value)
  {
    ExampleSelection();
    var g := Grid4DAsWritten(ExampleArray, false, true, ExampleOrder).value;
    assert g.dims[2] != Sources(g.axes)[2];
  }
}

=== FILE: rbf.dfy ===
/** `RTree.radial_basis_function`: choice of the radial basis function from its documented
    snake_case name, the rule on `epsilon`, and the CamelCase member of the native
    `RadialBasisFunction` enumeration the name is turned into. */
module RadialBasis {
  import opened Wrappers
  import opened Text
  import opened RTreeFront

  /** The members of the native enumeration `core.RadialBasisFunction`. */
  datatype Rbf = Cubic | Gaussian | InverseMultiquadric | Linear | Multiquadric | ThinPlate

  /** Functions whose shape depends on the constant `epsilon`. */
  const Adjustable: seq<string> := ["gaussian", "inverse_multiquadric", "multiquadric"]

  /** Functions that take no `epsilon`. */
  const NonAdjustable: seq<string> := ["cubic", "linear", "thin_plate"]

  const DefaultRbf: string := "multiquadric"

  /** The documented name of each function. */
  function SnakeName(f: Rbf): string {
    match f
    case Cubic => "cubic"
    case Gaussian => "gaussian"
    case InverseMultiquadric => "inverse_multiquadric"
    case Linear => "linear"
    case Multiquadric => "multiquadric"
    case ThinPlate => "thin_plate"
  }

  /** The attribute name of each enumeration member. */
  function MemberName(f: Rbf): string {
    match f
    case Cubic => "Cubic"
    case Gaussian => "Gaussian"
    case InverseMultiquadric => "InverseMultiquadric"
    case Linear => "Linear"
    case Multiquadric => "Multiquadric"
    case ThinPlate => "ThinPlate"
  }

  /** Whether the function uses `epsilon`, as its formula shows. */
  predicate UsesEpsilon(f: Rbf) {
    f.Gaussian? || f.InverseMultiquadric? || f.Multiquadric?
  }

  /** `getattr(core.RadialBasisFunction, name)`. */
  function MemberNamed(name: string): (r: Result<Rbf, RError>)
    ensures r.Ok? ==> MemberName(r.value) == name
    ensures r.Err? ==> r.error == NoSuchRbfMember(name) && forall f :: MemberName(f) != name
  {
    if name == "Cubic" then Ok(Cubic)
    else if name == "Gaussian" then Ok(Gaussian)
    else if name == "InverseMultiquadric" then Ok(InverseMultiquadric)
    else if name == "Linear" then Ok(Linear)
    else if name == "Multiquadric" then Ok(Multiquadric)
    else if name == "ThinPlate" then Ok(ThinPlate)
    else Err(NoSuchRbfMember(name))
  }

  /** `rbf or adjustable[-1]`: a missing or empty name selects the default. */
  function DefaultName(rbf: Option<string>): (name: string)
    ensures name != ""
    ensures rbf.Some? && rbf.value != "" ==> name == rbf.value
    ensures rbf.None? || rbf.value == "" ==> name == Adjustable[|Adjustable| - 1]
  {
    match rbf
    case Some(s) => if s != "" then s else DefaultRbf
    case None => DefaultRbf
  }

  /** The two lists split the six functions by their use of `epsilon`. */
  lemma ListsClassifyFunctions(f: Rbf)
    ensures SnakeName(f) in Adjustable <==> UsesEpsilon(f)
    ensures SnakeName(f) in NonAdjustable <==> !UsesEpsilon(f)
  {
  }

  /** Every listed name is the documented name of exactly one function. */
  lemma ListedNamesAreFunctions(name: string)
    ensures name in Adjustable + NonAdjustable <==> exists f :: SnakeName(f) == name
  {
    if name in Adjustable + NonAdjustable {
      var i :| 0 <= i < 6 && (Adjustable + NonAdjustable)[i] == name;
      var fs := [Gaussian, InverseMultiquadric, Multiquadric, Cubic, Linear, ThinPlate];
      assert SnakeName(fs[i]) == name;
    }
  }

  lemma SnakeNameInjective(f: Rbf, g: Rbf)
    requires SnakeName(f) == SnakeName(g)
    ensures f == g
  {
  }

  lemma {:induction false} LowerAllOfLowerWord(w: string)
    requires forall i :: 0 <= i < |w| ==> IsLowerLetter(w[i])
    ensures LowerAll(w) == w
  {
  }

  lemma {:induction false} SplitWord(w: string)
    requires '_' !in w
    ensures Split(w, '_') == [w]
  {
    if |w| > 0 {
      assert w[0] != '_';
      assert '_' !in w[1..];
      SplitWord(w[1..]);
    }
  }

  lemma {:induction false} SplitAtUnderscore(a: string, b: string)
    requires '_' !in a
    ensures Split(a + "_" + b, '_') == [a] + Split(b, '_')
  {
    if |a| == 0 {
      assert (a + "_" + b)[1..] == b;
    } else {
      assert a[0] != '_';
      assert '_' !in a[1..];
      assert (a + "_" + b)[1..] == a[1..] + "_" + b;
      SplitAtUnderscore(a[1..], b);
      assert [a[0]] + a[1..] == a;
    }
  }

  lemma LowerWordHasNoUnderscore(w: string)
    requires IsLowerWord(w)
    ensures '_' !in w
  {
    forall i | 0 <= i < |w| ensures w[i] != '_' {
      assert IsLowerLetter(w[i]);
    }
  }

  lemma CapitalizeLowerWord(w: string)
    requires IsLowerWord(w)
    ensures Capitalize(w) == [Upper(w[0])] + w[1..]
  {
    LowerAllOfLowerWord(w[1..]);
  }

  /** Mangling a two-word snake_case name. */
  lemma MangleTwoWords(a: string, b: string)
    requires IsLowerWord(a) && IsLowerWord(b)
    ensures Mangle(a + "_" + b) == Capitalize(a) + Capitalize(b)
  {
    LowerWordHasNoUnderscore(a);
    LowerWordHasNoUnderscore(b);
    SplitAtUnderscore(a, b);
    SplitWord(b);
    var caps := CapitalizeAll([a, b]);
    assert caps == [Capitalize(a), Capitalize(b)];
    assert Concat(caps) == Capitalize(a) + Concat(caps[1..]);
    assert caps[1..] == [Capitalize(b)];
  }

  /** Mangling a one-word name. */
  lemma MangleOneWord(a: string)
    requires IsLowerWord(a)
    ensures Mangle(a) == Capitalize(a)
  {
    LowerWordHasNoUnderscore(a);
    SplitWord(a);
    assert CapitalizeAll([a]) == [Capitalize(a)];
    assert Concat([Capitalize(a)]) == Capitalize(a) + Concat([]);
  }

  /** A one-word name mangles to itself with its initial in upper case. */
  lemma MangleOneWordTo(w: string, camel: string)
    requires IsLowerWord(w) && camel == [Upper(w[0])] + w[1..]
    ensures Mangle(w) == camel
  {
    CapitalizeLowerWord(w);
    MangleOneWord(w);
  }

  /** `a_b` mangles to `AB` with both initials in upper case. */
  lemma MangleTwoWordsTo(a: string, b: string, w: string, camel: string)
    requires IsLowerWord(a) && IsLowerWord(b) && w == a + "_" + b
    requires camel == [Upper(a[0])] + a[1..] + [Upper(b[0])] + b[1..]
    ensures Mangle(w) == camel
  {
    CapitalizeLowerWord(a);
    CapitalizeLowerWord(b);
    MangleTwoWords(a, b);
  }

  /** One lemma per member: each applies `MangleOneWordTo` or `MangleTwoWordsTo` to that
      member's two names, so that every proof sees a single name. */
  lemma MangleCubic(f: Rbf)
    requires f.Cubic?
    ensures Mangle(SnakeName(f)) == MemberName(f)
  {
    MangleOneWordTo(SnakeName(f), MemberName(f));
  }

  lemma MangleGaussian(f: Rbf)
    requires f.Gaussian?
    ensures Mangle(SnakeName(f)) == MemberName(f)
  {
    MangleOneWordTo(SnakeName(f), MemberName(f));
  }

  lemma MangleLinear(f: Rbf)
    requires f.Linear?
    ensures Mangle(SnakeName(f)) == MemberName(f)
  {
    MangleOneWordTo(SnakeName(f), MemberName(f));
  }

  lemma MangleMultiquadric(f: Rbf)
    requires f.Multiquadric?
    ensures Mangle(SnakeName(f)) == MemberName(f)
  {
    MangleOneWordTo(SnakeName(f), MemberName(f));
  }

  lemma MangleInverseMultiquadric(f: Rbf)
    requires f.InverseMultiquadric?
    ensures Mangle(SnakeName(f)) == MemberName(f)
  {
    MangleTwoWordsTo("inverse", "multiquadric", SnakeName(f), MemberName(f));
  }

  lemma MangleThinPlate(f: Rbf)
    requires f.ThinPlate?
    ensures Mangle(SnakeName(f)) == MemberName(f)
  {
    MangleTwoWordsTo("thin", "plate", SnakeName(f), MemberName(f));
  }

  /** The name mangling of the source turns each documented name into the attribute name of
      the matching enumeration member. */
  lemma MangleSelectsMember(f: Rbf)
    ensures Mangle(SnakeName(f)) == MemberName(f)
  {
    if f.InverseMultiquadric? {
      MangleInverseMultiquadric(f);
    } else if f.ThinPlate? {
      MangleThinPlate(f);
    } else if f.Cubic? {
      MangleCubic(f);
    } else if f.Gaussian? {
      MangleGaussian(f);
    } else if f.Linear? {
      MangleLinear(f);
    } else {
      MangleMultiquadric(f);
    }
  }

  /** The six documented names mangle to six different identifiers, none with an underscore. */
  lemma MangledNamesDistinct(f: Rbf, g: Rbf)
    ensures Mangle(SnakeName(f)) == Mangle(SnakeName(g)) <==> f == g
    ensures '_' !in Mangle(SnakeName(f))
  {
    MangleSelectsMember(f);
    MangleSelectsMember(g);
    MangleHasNoUnderscore(SnakeName(f));
  }

  /** The function a listed name documents. */
  function Documented(name: string): (f: Rbf)
    requires name in Adjustable + NonAdjustable
    ensures SnakeName(f) == name
  {
    if name == "cubic" then Cubic
    else if name == "gaussian" then Gaussian
    else if name == "inverse_multiquadric" then InverseMultiquadric
    else if name == "linear" then Linear
    else if name == "multiquadric" then Multiquadric
    else ThinPlate
  }

  /** Looking up the mangled documented name finds the function it documents. */
  lemma MemberOfDocumentedName(f: Rbf)
    ensures MemberNamed(Mangle(SnakeName(f))) == Ok(f)
  {
    MangleSelectsMember(f);
    assert MemberNamed(MemberName(f)) == Ok(f);
  }

  /** The native member chosen for a name that passed the list check. */
  lemma ListedNameSelectsMember(name: string)
    requires name in Adjustable + NonAdjustable
    ensures MemberNamed(Mangle(name)) == Ok(Documented(name))
  {
    MemberOfDocumentedName(Documented(name));
  }

  /** The RBF and epsilon checks as written: `epsilon` is refused for the functions of the
      `adjustable` list. */
  function RbfArgumentAsWritten(rbf: Option<string>, epsilon: Option<real>): (r: Result<Rbf, RError>)
    ensures epsilon.Some? && DefaultName(rbf) in Adjustable ==>
      r == Err(EpsilonNotAllowed(DefaultName(rbf)))
    ensures !(epsilon.Some? && DefaultName(rbf) in Adjustable)
            && DefaultName(rbf) !in Adjustable + NonAdjustable ==>
      r == Err(RbfNotDefined(DefaultName(rbf)))
    ensures r.Ok? <==>
      DefaultName(rbf) in Adjustable + NonAdjustable && !(epsilon.Some? && DefaultName(rbf) in Adjustable)
    ensures r.Ok? ==> SnakeName(r.value) == DefaultName(rbf)
  {
    var name := DefaultName(rbf);
    if epsilon.Some? && name in Adjustable then Err(EpsilonNotAllowed(name))
    else if name !in Adjustable + NonAdjustable then Err(RbfNotDefined(name))
    else
      ListedNameSelectsMember(name);
      MemberNamed(Mangle(name))
  }

  /** The checks with `epsilon` refused for the functions that do not use it, as the error
      message and the documentation of `epsilon` state. */
  function RbfArgument(rbf: Option<string>, epsilon: Option<real>): (r: Result<Rbf, RError>)
    ensures epsilon.Some? && DefaultName(rbf) in NonAdjustable ==>
      r == Err(EpsilonNotAllowed(DefaultName(rbf)))
    ensures DefaultName(rbf) !in Adjustable + NonAdjustable ==>
      r == Err(RbfNotDefined(DefaultName(rbf)))
    ensures r.Ok? <==>
      DefaultName(rbf) in Adjustable + NonAdjustable && !(epsilon.Some? && DefaultName(rbf) in NonAdjustable)
    ensures r.Ok? ==> SnakeName(r.value) == DefaultName(rbf)
    // an epsilon only ever reaches a function that uses it
    ensures r.Ok? && epsilon.Some? ==> UsesEpsilon(r.value)
  {
    var name := DefaultName(rbf);
    if epsilon.Some? && name in NonAdjustable then Err(EpsilonNotAllowed(name))
    else if name !in Adjustable + NonAdjustable then Err(RbfNotDefined(name))
    else
      ListedNameSelectsMember(name);
      var r := MemberNamed(Mangle(name));
      ListsClassifyFunctions(r.value);
      r
  }

  /** As written, the epsilon rule is inverted: with an epsilon, exactly the functions that
      do not use it are accepted. */
  lemma AsWrittenAcceptsEpsilonOnlyWhereUnused(rbf: Option<string>, epsilon: Option<real>)
    requires epsilon.Some?
    ensures RbfArgumentAsWritten(rbf, epsilon).Ok? <==> DefaultName(rbf) in NonAdjustable
    ensures RbfArgumentAsWritten(rbf, epsilon).Ok? ==> !UsesEpsilon(RbfArgumentAsWritten(rbf, epsilon).value)
  {
    var r := RbfArgumentAsWritten(rbf, epsilon);
    if r.Ok? {
      ListsClassifyFunctions(r.value);
    }
  }

  /** Without an epsilon the two versions agree. */
  lemma RbfArgumentFixOnlyConcernsEpsilon(rbf: Option<string>)
    ensures RbfArgument(rbf, None) == RbfArgumentAsWritten(rbf, None)
  {
  }

  /** Counterexample: `radial_basis_function(..., rbf="gaussian", epsilon=e)` is refused for
      every `e`, although the gaussian function is the one that uses `epsilon`. */
  lemma GaussianEpsilonRefusedAsWritten(name: string, e: real)
    requires name == SnakeName(Gaussian)
    ensures RbfArgumentAsWritten(Some(name), Some(e)) == Err(EpsilonNotAllowed(name))
  {
    assert name in Adjustable;
  }

  /** ... while `rbf="cubic", epsilon=e` is accepted, although cubic does not use it. */
  lemma CubicEpsilonAcceptedAsWritten(name: string, e: real)
    requires name == SnakeName(Cubic)
    ensures RbfArgumentAsWritten(Some(name), Some(e)) == Ok(Cubic)
  {
    assert name in NonAdjustable && name !in Adjustable;
    SnakeNameInjective(RbfArgumentAsWritten(Some(name), Some(e)).value, Cubic);
  }

  /** With the corrected rule, gaussian takes an epsilon ... */
  lemma GaussianEpsilonAccepted(name: string, e: real)
    requires name == SnakeName(Gaussian)
    ensures RbfArgument(Some(name), Some(e)) == Ok(Gaussian)
  {
    assert name in Adjustable && name !in NonAdjustable;
    SnakeNameInjective(RbfArgument(Some(name), Some(e)).value, Gaussian);
  }

  /** ... and cubic refuses it. */
  lemma CubicEpsilonRefused(name: string, e: real)
    requires name == SnakeName(Cubic)
    ensures RbfArgument(Some(name), Some(e)) == Err(EpsilonNotAllowed(name))
  {
    assert name in NonAdjustable;
  }

  /** The arguments handed to the native `radial_basis_function`. */
  datatype RbfQuery<C> = RbfQuery(coordinates: C, radius: Option<real>, k: int, rbf: Rbf,
                                  epsilon: Option<real>, smooth: real, within: bool,
                                  numThreads: int)

  /** `RTree.radial_basis_function` as written: the checks of `RbfArgumentAsWritten`, then
      the call of the native method. */
  function RadialBasisFunctionAsWritten<C>(coordinates: C, radius: Option<real>, k: int, rbf: Option<string>,
                                           epsilon: Option<real>, smooth: real, within: bool,
                                           numThreads: int): (r: Result<RbfQuery<C>, RError>)
    ensures r.Ok? <==>
      DefaultName(rbf) in Adjustable + NonAdjustable && !(epsilon.Some? && DefaultName(rbf) in Adjustable)
    ensures epsilon.Some? && DefaultName(rbf) in Adjustable ==>
      r == Err(EpsilonNotAllowed(DefaultName(rbf)))
    ensures !(epsilon.Some? && DefaultName(rbf) in Adjustable)
            && DefaultName(rbf) !in Adjustable + NonAdjustable ==>
      r == Err(RbfNotDefined(DefaultName(rbf)))
    // the function named (or the default), and every other argument unchanged
    ensures r.Ok? ==>
      && SnakeName(r.value.rbf) == DefaultName(rbf)
      && r.value.coordinates == coordinates && r.value.radius == radius && r.value.k == k
      && r.value.epsilon == epsilon && r.value.smooth == smooth && r.value.within == within
      && r.value.numThreads == numThreads
  {
    var f :- RbfArgumentAsWritten(rbf, epsilon);
    Ok(RbfQuery(coordinates, radius, k, f, epsilon, smooth, within, numThreads))
  }

  /** As written, with no name given the multiquadric function is used when no epsilon is
      given, and any epsilon is refused, since multiquadric is in the `adjustable` list. */
  lemma DefaultIsMultiquadricAsWritten<C>(coordinates: C, radius: Option<real>, k: int, epsilon: Option<real>,
                                          smooth: real, within: bool, numThreads: int)
    ensures var r := RadialBasisFunctionAsWritten(coordinates, radius, k, None, epsilon, smooth, within,
                                                  numThreads);
      && (epsilon.None? ==> r.Ok? && r.value.rbf == Multiquadric)
      && (epsilon.Some? ==> r == Err(EpsilonNotAllowed(SnakeName(Multiquadric))))
  {
    var r := RadialBasisFunctionAsWritten(coordinates, radius, k, None, epsilon, smooth, within, numThreads);
    assert DefaultRbf in Adjustable;
    if epsilon.None? {
      assert SnakeName(r.value.rbf) == "multiquadric";
    }
  }

  /** `RTree.radial_basis_function` with the corrected epsilon rule of `RbfArgument`. */
  function RadialBasisFunction<C>(coordinates: C, radius: Option<real>, k: int, rbf: Option<string>,
                                  epsilon: Option<real>, smooth: real, within: bool,
                                  numThreads: int): (r: Result<RbfQuery<C>, RError>)
    ensures r.Ok? <==>
      DefaultName(rbf) in Adjustable + NonAdjustable && !(epsilon.Some? && DefaultName(rbf) in NonAdjustable)
    ensures r.Err? ==> r.error.EpsilonNotAllowed? || r.error.RbfNotDefined?
    // the function named (or the default), and every other argument unchanged
    ensures r.Ok? ==>
      && SnakeName(r.value.rbf) == DefaultName(rbf)
      && r.value.coordinates == coordinates && r.value.radius == radius && r.value.k == k
      && r.value.epsilon == epsilon && r.value.smooth == smooth && r.value.within == within
      && r.value.numThreads == numThreads
  {
    var f :- RbfArgument(rbf, epsilon);
    Ok(RbfQuery(coordinates, radius, k, f, epsilon, smooth, within, numThreads))
  }

  /** With the corrected rule and no name given, the multiquadric function is used, with or
      without an epsilon. */
  lemma DefaultIsMultiquadric<C>(coordinates: C, radius: Option<real>, k: int, epsilon: Option<real>,
                                 smooth: real, within: bool, numThreads: int)
    ensures var r := RadialBasisFunction(coordinates, radius, k, None, epsilon, smooth, within, numThreads);
      r.Ok? && r.value.rbf == Multiquadric
  {
    var r := RadialBasisFunction(coordinates, radius, k, None, epsilon, smooth, within, numThreads);
    assert DefaultRbf in Adjustable && DefaultRbf !in NonAdjustable;
    assert SnakeName(r.value.rbf) == "multiquadric";
  }
}

=== FILE: regular_grid.dfy ===
/** `RegularGridInterpolator` of the xarray backend: the choice of grid by number of
    dimensions, and the routing of a call to the interpolation function, with the decoded
    coordinates and the keyword arguments it receives. The interpolation functions
    themselves are foreign; a call is modelled by the invocation it makes. */
module RegularGrid {
  import opened Wrappers
  import opened DataArrays
  import opened CoordArgs
  import opened AxisIdentifier
  import opened Grids

  /** The bound method stored in `self._interp`. */
  datatype Interp = Bivariate | Trivariate | Quadrivariate

  /** `self._grid` and `self._interp`. */
  datatype Interpolator = Interpolator(grid: Grid, interp: Interp)

  /** The `interpolator.*` function a call ends in. */
  datatype InterpFunction = BivariateFn | TrivariateFn | QuadrivariateFn | BicubicFn

  /** One call of an `interpolator.*` function: the grid, the positional coordinates, the
      `interpolator=` keyword when given, `bounds_error`, `num_threads`, and the extra
      keyword arguments (`bicubic_kwargs`, values opaque). */
  datatype Invocation<V, W> = Invocation(target: InterpFunction, grid: Grid, args: seq<V>,
                                         interpolator: Option<string>, boundsError: bool,
                                         numThreads: int, kwargs: map<string, W>)

  /** Number of coordinates the interpolation function of `interp` takes. */
  function Arity(interp: Interp): nat {
    match interp
    case Bivariate => 2
    case Trivariate => 3
    case Quadrivariate => 4
  }

  function FunctionOf(interp: Interp): InterpFunction {
    match interp
    case Bivariate => BivariateFn
    case Trivariate => TrivariateFn
    case Quadrivariate => QuadrivariateFn
  }

  /** `RegularGridInterpolator.__init__` as written; `setOrder` is the iteration order of
      `set(array.dims)` (see `Grid3D`). A four-dimensional array gets the `Grid4D` of the
      code as written. */
  function NewInterpolatorAsWritten(da: DataArray, increasingAxes: bool, geodetic: bool, setOrder: seq<string>)
    : (r: Result<Interpolator, XError>)
    requires Lists(setOrder, Elements(da.dims))
    ensures !(2 <= |da.dims| <= 4) ==> r == Err(NotImplementedDims(|da.dims|))
    // `ndim`: one axis per dimension of the array, and an interpolator of that arity
    ensures r.Ok? ==>
      |r.value.grid.dims| == |r.value.grid.axes| == |da.dims| == Arity(r.value.interp)
    ensures r.Ok? ==>
      && Sources(r.value.grid.axes) == r.value.grid.transposeOrder
      && r.value.grid.increasingAxes == increasingAxes
    // the orders agree for two and three dimensions only
    ensures r.Ok? && |da.dims| != 4 ==> Consistent(r.value.grid) && OnlyXCircular(r.value.grid, geodetic)
    // every grid the constructor can build is reached
    ensures |da.dims| == 2 ==> (r.Ok? <==> Grid2D(da, increasingAxes, geodetic).Ok?)
    ensures |da.dims| == 3 ==> (r.Ok? <==> Grid3D(da, increasingAxes, geodetic, setOrder).Ok?)
    ensures |da.dims| == 4 ==> (r.Ok? <==> Grid4DAsWritten(da, increasingAxes, geodetic, setOrder).Ok?)
    // the grid is the one built for that dimension, and its errors reach the caller unchanged
    ensures |da.dims| == 2 && r.Ok? ==> r.value.grid == Grid2D(da, increasingAxes, geodetic).value
    ensures |da.dims| == 2 && r.Err? ==> r.error == Grid2D(da, increasingAxes, geodetic).error
    ensures |da.dims| == 3 && r.Ok? ==> r.value.grid == Grid3D(da, increasingAxes, geodetic, setOrder).value
    ensures |da.dims| == 3 && r.Err? ==> r.error == Grid3D(da, increasingAxes, geodetic, setOrder).error
    ensures |da.dims| == 4 && r.Ok? ==> r.value.grid == Grid4DAsWritten(da, increasingAxes, geodetic, setOrder).value
    ensures |da.dims| == 4 && r.Err? ==> r.error == Grid4DAsWritten(da, increasingAxes, geodetic, setOrder).error
  {
    var n := |da.dims|;
    if n == 2 then
      var g :- Grid2D(da, increasingAxes, geodetic);
      Ok(Interpolator(g, Bivariate))
    else if n == 3 then
      var g :- Grid3D(da, increasingAxes, geodetic, setOrder);
      Ok(Interpolator(g, Trivariate))
    else if n == 4 then
      var g :- Grid4DAsWritten(da, increasingAxes, geodetic, setOrder);
      Ok(Interpolator(g, Quadrivariate))
    else
      Err(NotImplementedDims(n))
  }

  /** `RegularGridInterpolator.__init__` with the corrected `Grid4D`. */
  function NewInterpolator(da: DataArray, increasingAxes: bool, geodetic: bool, setOrder: seq<string>)
    : (r: Result<Interpolator, XError>)
    requires Lists(setOrder, Elements(da.dims))
    ensures !(2 <= |da.dims| <= 4) ==> r == Err(NotImplementedDims(|da.dims|))
    // `ndim`: one axis per dimension of the array, and an interpolator of that arity
    ensures r.Ok? ==>
      |r.value.grid.axes| == |da.dims| == Arity(r.value.interp)
    ensures r.Ok? ==>
      Consistent(r.value.grid) && OnlyXCircular(r.value.grid, geodetic)
      && r.value.grid.increasingAxes == increasingAxes
    // every grid the constructor can build is reached
    ensures |da.dims| == 2 ==> (r.Ok? <==> Grid2D(da, increasingAxes, geodetic).Ok?)
    ensures |da.dims| == 3 ==> (r.Ok? <==> Grid3D(da, increasingAxes, geodetic, setOrder).Ok?)
    ensures |da.dims| == 4 ==> (r.Ok? <==> Grid4D(da, increasingAxes, geodetic, setOrder).Ok?)
    // the grid is the one built for that dimension, and its errors reach the caller unchanged
    ensures |da.dims| == 2 && r.Ok? ==> r.value.grid == Grid2D(da, increasingAxes, geodetic).value
    ensures |da.dims| == 2 && r.Err? ==> r.error == Grid2D(da, increasingAxes, geodetic).error
    ensures |da.dims| == 3 && r.Ok? ==> r.value.grid == Grid3D(da, increasingAxes, geodetic, setOrder).value
    ensures |da.dims| == 3 && r.Err? ==> r.error == Grid3D(da, increasingAxes, geodetic, setOrder).error
    ensures |da.dims| == 4 && r.Ok? ==> r.value.grid == Grid4D(da, increasingAxes, geodetic, setOrder).value
    ensures |da.dims| == 4 && r.Err? ==> r.error == Grid4D(da, increasingAxes, geodetic, setOrder).error
  {
    var n := |da.dims|;
    if n == 2 then
      var g :- Grid2D(da, increasingAxes, geodetic);
      Ok(Interpolator(g, Bivariate))
    else if n == 3 then
      var g :- Grid3D(da, increasingAxes, geodetic, setOrder);
      Ok(Interpolator(g, Trivariate))
    else if n == 4 then
      var g :- Grid4D(da, increasingAxes, geodetic, setOrder);
      Ok(Interpolator(g, Quadrivariate))
    else
      Err(NotImplementedDims(n))
  }

  /** The corrected constructor fails exactly when the one as written does, and builds the
      same interpolator except for the decoding order `dims`, which differs exactly for a
      four-dimensional array whose fourth dimension in set order is the time coordinate. */
  lemma {:induction false} InterpolatorFixOnlyReordersDims(da: DataArray, increasingAxes: bool, geodetic: bool,
                                                           setOrder: seq<string>)
    requires Lists(setOrder, Elements(da.dims))
    ensures var w := NewInterpolatorAsWritten(da, increasingAxes, geodetic, setOrder);
            var c := NewInterpolator(da, increasingAxes, geodetic, setOrder);
      && (w.Ok? <==> c.Ok?)
      && (w.Err? ==> w == c)
      && (w.Ok? ==>
            && c.value == w.value.(grid := w.value.grid.(dims := c.value.grid.dims))
            && (w.value.grid.dims != c.value.grid.dims
                <==> |da.dims| == 4 && IsTimeCoordinate(da, w.value.grid.dims[3])))
  {
    if |da.dims| == 4 {
      Grid4DFixOnlyReordersDims(da, increasingAxes, geodetic, setOrder);
    }
  }

  /** Parameters of the grid methods that a keyword of `bicubic_kwargs` would give twice. */
  const BicubicReserved: set<string> := {"self", "coords", "bounds_error", "num_threads"}

  /** `RegularGridInterpolator.__call__(coords, method, bounds_error, bicubic_kwargs,
      num_threads)`; `safeCast` is the time axis' `safe_cast`. */
  function Call<V, W>(it: Interpolator, coords: CoordsArg<V>, methodName: string, boundsError: bool,
                      bicubicKwargs: Option<map<string, W>>, numThreads: int, safeCast: V -> V)
    : (r: Result<Invocation<V, W>, XError>)
    // 'bicubic' goes to `bicubic`, with the extra keywords and no `interpolator=`
    ensures methodName == "bicubic" && r.Ok? ==>
      && r.value.target == BicubicFn && r.value.interpolator.None?
      && r.value.kwargs == bicubicKwargs.GetOr(map[])
    // any other string is handed on unchanged as `interpolator=`
    ensures methodName != "bicubic" && r.Ok? ==>
      && r.value.target == FunctionOf(it.interp) && r.value.interpolator == Some(methodName)
      && r.value.kwargs == map[]
    ensures r.Ok? ==>
      r.value.grid == it.grid && r.value.boundsError == boundsError && r.value.numThreads == numThreads
    // a keyword given twice fails before the coordinates are looked at
    ensures methodName == "bicubic" && bicubicKwargs.GetOr(map[]).Keys * BicubicReserved != {} ==>
      r == Err(MultipleValuesForKeywords(bicubicKwargs.GetOr(map[]).Keys * BicubicReserved))
    // otherwise the call fails exactly when decoding the coordinates fails
    ensures !(methodName == "bicubic" && bicubicKwargs.GetOr(map[]).Keys * BicubicReserved != {}) ==>
      (r.Ok? <==> Coords(coords, it.grid.dims, it.grid.datetime64, safeCast).Ok?)
    // the positional arguments are the coordinates decoded in the grid's `_dims` order
    ensures r.Ok? ==>
      Coords(coords, it.grid.dims, it.grid.datetime64, safeCast).Ok?
      && r.value.args == Coords(coords, it.grid.dims, it.grid.datetime64, safeCast).value.args
    // on a consistent grid, argument i is the user's value for the coordinate of axis i
    ensures r.Ok? && Consistent(it.grid) ==>
      && coords.Dict? && |r.value.args| == |it.grid.axes|
      && forall i :: 0 <= i < |it.grid.axes| ==>
           it.grid.axes[i].source in coords.entries
           && r.value.args[i] == EntryFor(coords.entries, it.grid.axes[i].source, it.grid.datetime64, safeCast)
  {
    if methodName == "bicubic" then
      var kwargs := bicubicKwargs.GetOr(map[]);
      var clash := kwargs.Keys * BicubicReserved;
      if clash != {} then Err(MultipleValuesForKeywords(clash))
      else
        var decoded :- Coords(coords, it.grid.dims, it.grid.datetime64, safeCast);
        Ok(Invocation(BicubicFn, it.grid, decoded.args, None, boundsError, numThreads, kwargs))
    else
      var decoded :- Coords(coords, it.grid.dims, it.grid.datetime64, safeCast);
      Ok(Invocation(FunctionOf(it.interp), it.grid, decoded.args, Some(methodName), boundsError,
                    numThreads, map[]))
  }

  /** Every grid the corrected constructor builds from a well-formed array names each
      dimension once: x and y are different coordinates, and the rest are the array's other
      dimensions. */
  lemma {:induction false} InterpolatorDimsDistinct(da: DataArray, increasingAxes: bool, geodetic: bool,
                                                    setOrder: seq<string>)
    requires WellFormed(da)
    requires Lists(setOrder, Elements(da.dims))
    requires NewInterpolator(da, increasingAxes, geodetic, setOrder).Ok?
    ensures Distinct(NewInterpolator(da, increasingAxes, geodetic, setOrder).value.grid.dims)
  {
    var n := |da.dims|;
    if n == 2 {
      Grid2DDimsDistinct(da, increasingAxes, geodetic);
    } else if n == 3 {
      Grid3DDimsDistinct(da, increasingAxes, geodetic, setOrder);
    } else {
      Grid4DDimsDistinct(da, increasingAxes, geodetic, setOrder);
    }
  }

  /** End to end, with the corrected constructor: for every interpolator it builds, each
      coordinate handed to the interpolation function is the user's value for the axis it is
      used with (cast to the time axis for the temporal one), and there is one per axis; and
      on a well-formed array a call succeeds whenever the keys are exactly the grid's
      dimensions and no keyword is given twice. */
  lemma {:induction false} CallArgumentsMatchAxes<V, W>(da: DataArray, increasingAxes: bool, geodetic: bool,
                                                      setOrder: seq<string>, coords: CoordsArg<V>,
                                                      methodName: string, boundsError: bool,
                                                      bicubicKwargs: Option<map<string, W>>,
                                                      numThreads: int, safeCast: V -> V)
    requires Lists(setOrder, Elements(da.dims))
    requires NewInterpolator(da, increasingAxes, geodetic, setOrder).Ok?
    ensures var it := NewInterpolator(da, increasingAxes, geodetic, setOrder).value;
            var r := Call(it, coords, methodName, boundsError, bicubicKwargs, numThreads, safeCast);
      r.Ok? ==>
        && coords.Dict? && |r.value.args| == |da.dims| == |it.grid.axes|
        && forall i :: 0 <= i < |it.grid.axes| ==>
             r.value.args[i] == EntryFor(coords.entries, it.grid.axes[i].source, it.grid.datetime64, safeCast)
    ensures var it := NewInterpolator(da, increasingAxes, geodetic, setOrder).value;
            var r := Call(it, coords, methodName, boundsError, bicubicKwargs, numThreads, safeCast);
      (WellFormed(da) && coords.Dict? && coords.entries.Keys == Elements(it.grid.dims)
       && !(methodName == "bicubic" && bicubicKwargs.GetOr(map[]).Keys * BicubicReserved != {})) ==> r.Ok?
  {
    var it := NewInterpolator(da, increasingAxes, geodetic, setOrder).value;
    assert Consistent(it.grid);
    if WellFormed(da) {
      InterpolatorDimsDistinct(da, increasingAxes, geodetic, setOrder);
      assert it.grid.datetime64.Some? ==> it.grid.datetime64.value in it.grid.dims;
    }
  }

  /** End to end, with the constructor as written: the arguments match the axes as above for
      every interpolator except a four-dimensional one whose fourth dimension in set order is
      the time coordinate (see `CallOnAsWrittenGrid4DMisplacesDepth`). */
  lemma {:induction false} CallArgumentsMatchAxesAsWritten<V, W>(da: DataArray, increasingAxes: bool,
                                                               geodetic: bool, setOrder: seq<string>,
                                                               coords: CoordsArg<V>, methodName: string,
                                                               boundsError: bool,
                                                               bicubicKwargs: Option<map<string, W>>,
                                                               numThreads: int, safeCast: V -> V)
    requires Lists(setOrder, Elements(da.dims))
    requires NewInterpolatorAsWritten(da, increasingAxes, geodetic, setOrder).Ok?
    ensures var it := NewInterpolatorAsWritten(da, increasingAxes, geodetic, setOrder).value;
            var r := Call(it, coords, methodName, boundsError, bicubicKwargs, numThreads, safeCast);
      r.Ok? && !(|da.dims| == 4 && IsTimeCoordinate(da, it.grid.dims[3])) ==>
        && coords.Dict? && |r.value.args| == |da.dims| == |it.grid.axes|
        && forall i :: 0 <= i < |it.grid.axes| ==>
             r.value.args[i] == EntryFor(coords.entries, it.grid.axes[i].source, it.grid.datetime64, safeCast)
    // a call still succeeds whenever the keys are exactly the grid's dimensions
    ensures var it := NewInterpolatorAsWritten(da, increasingAxes, geodetic, setOrder).value;
            var r := Call(it, coords, methodName, boundsError, bicubicKwargs, numThreads, safeCast);
      (WellFormed(da) && coords.Dict? && coords.entries.Keys == Elements(it.grid.dims)
       && !(methodName == "bicubic" && bicubicKwargs.GetOr(map[]).Keys * BicubicReserved != {})) ==> r.Ok?
  {
    var it := NewInterpolatorAsWritten(da, increasingAxes, geodetic, setOrder).value;
    InterpolatorFixOnlyReordersDims(da, increasingAxes, geodetic, setOrder);
    var c := NewInterpolator(da, increasingAxes, geodetic, setOrder).value;
    if !(|da.dims| == 4 && IsTimeCoordinate(da, it.grid.dims[3])) {
      assert it == c;
      assert Consistent(it.grid);
    }
    if WellFormed(da) {
      InterpolatorAsWrittenDecodable(da, increasingAxes, geodetic, setOrder);
    }
  }

  /** On a well-formed array, the grid the constructor as written builds names each
      dimension once, and its time dimension is one of them. */
  lemma InterpolatorAsWrittenDecodable(da: DataArray, increasingAxes: bool, geodetic: bool,
                                       setOrder: seq<string>)
    requires WellFormed(da)
    requires Lists(setOrder, Elements(da.dims))
    requires NewInterpolatorAsWritten(da, increasingAxes, geodetic, setOrder).Ok?
    ensures var g := NewInterpolatorAsWritten(da, increasingAxes, geodetic, setOrder).value.grid;
      Distinct(g.dims) && (g.datetime64.Some? ==> g.datetime64.value in g.dims)
  {
    var it := NewInterpolatorAsWritten(da, increasingAxes, geodetic, setOrder).value;
    InterpolatorFixOnlyReordersDims(da, increasingAxes, geodetic, setOrder);
    var c := NewInterpolator(da, increasingAxes, geodetic, setOrder).value;
    InterpolatorDimsDistinct(da, increasingAxes, geodetic, setOrder);
    assert Consistent(c.grid);
    if |da.dims| == 4 {
      AsWrittenDimsDistinct(da, increasingAxes, geodetic, setOrder, it, c);
    } else {
      assert it == c;
    }
  }

  /** The as-written 4-D grid names the same dimensions as the corrected one, once each. */
  lemma AsWrittenDimsDistinct(da: DataArray, increasingAxes: bool, geodetic: bool, setOrder: seq<string>,
                              it: Interpolator, c: Interpolator)
    requires Lists(setOrder, Elements(da.dims)) && |da.dims| == 4
    requires NewInterpolatorAsWritten(da, increasingAxes, geodetic, setOrder) == Ok(it)
    requires NewInterpolator(da, increasingAxes, geodetic, setOrder) == Ok(c)
    requires c == it.(grid := it.grid.(dims := c.grid.dims))
    requires Distinct(c.grid.dims)
    ensures Distinct(it.grid.dims) && Elements(it.grid.dims) == Elements(c.grid.dims)
  {
    var w := Grid4DAsWritten(da, increasingAxes, geodetic, setOrder).value;
    assert it.grid == w;
    assert c.grid.dims == c.grid.transposeOrder == w.transposeOrder;
    DistinctElements(c.grid.dims);
    ElementsAtMost(w.dims);
  }

  /** Decoding {lon: 1, lat: 2, depth: 3, time: 4} in the order (lon, lat, depth, time). */
  lemma ExampleDecode()
    ensures var c := Coords(Dict(map["lon" := 1, "lat" := 2, "depth" := 3, "time" := 4]),
                            ["lon", "lat", "depth", "time"], Some("time"), (t: int) => t);
      c.Ok? && c.value.args[2] == 3
  {
    var dims: seq<string> := ["lon", "lat", "depth", "time"];
    var m := map["lon" := 1, "lat" := 2, "depth" := 3, "time" := 4];
    assert Elements(dims) == {"lon", "lat", "depth", "time"};
    assert m.Keys == Elements(dims);
    assert Distinct(dims);
  }

  /** Counterexample, end to end: the constructor as written, given `ExampleArray` with
      `ExampleOrder`, builds a grid on which a call with coordinates
      {lon: 1, lat: 2, depth: 3, time: 4} hands the depth value 3 to the position of the
      time axis. */
  lemma CallOnAsWrittenGrid4DMisplacesDepth()
    ensures Lists(ExampleOrder, Elements(ExampleArray.dims))
    ensures var it := NewInterpolatorAsWritten(ExampleArray, false, true, ExampleOrder);
            var coords := Dict(map["lon" := 1, "lat" := 2, "depth" := 3, "time" := 4]);
      && it.Ok? && it.value.grid.axes[2].source == "time"
      && var r := Call<int, int>(it.value, coords, "bilinear", false, None, 0, (t: int) => t);
         r.Ok? && r.value.args[2] == 3
  {
    Grid4DAsWrittenMisordersDims();
    var g := Grid4DAsWritten(ExampleArray, false, true, ExampleOrder).value;
    assert NewInterpolatorAsWritten(ExampleArray, false, true, ExampleOrder) == Ok(Interpolator(g, Quadrivariate));
    ExampleDecode();
  }
}

=== FILE: rtree.dfy ===
/** The Python front end of the RTree spatial index: validation of the constructor's
    arguments, the name of the native class it instantiates, and the pickle state. The
    native index itself (packing, insertion, queries, IDW, RBF) is foreign. */
module RTreeFront {
  import opened Wrappers
  import opened Text

  /** `numpy.dtype` of the values: the two handled ones, or anything else. */
  datatype DType = Float64 | Float32 | OtherDType(name: string)

  /** The exceptions the front end raises. */
  datatype RError =
    | NdimsTooSmall(ndims: int)                  // ValueError, ndims < 3
    | DTypeNotHandled(dtype: DType)              // ValueError, dtype not float32/float64
    | EpsilonNotAllowed(rbf: string)             // ValueError, epsilon with this RBF
    | RbfNotDefined(rbf: string)                 // ValueError, unknown RBF name
    | NoSuchRbfMember(member: string)            // AttributeError on the RBF enumeration
    | InvalidState(length: nat)                  // ValueError, pickle state of wrong shape

  /** An `RTree` object: its recorded `dtype` and the native class of `self._instance`,
      together with the dimension that class was chosen for. */
  datatype RTree = RTree(dtype: DType, ndims: nat, className: string)

  const DefaultNdims: int := 3

  function ClassSuffix(dtype: DType): string
    requires !dtype.OtherDType?
  {
    match dtype
    case Float64 => "DFloat64"
    case Float32 => "DFloat32"
  }

  /** `f"RTree{ndims}DFloat64"` or `f"RTree{ndims}DFloat32"`. */
  function ClassName(ndims: nat, dtype: DType): string
    requires !dtype.OtherDType?
  {
    "RTree" + Decimal(ndims) + ClassSuffix(dtype)
  }

  /** Reads the dimension and dtype back from a native class name. */
  function ParseClassName(name: string): Option<(nat, DType)> {
    if |name| < 14 || name[..5] != "RTree" then None
    else
      var suffix := name[|name| - 8..];
      var digits := name[5..|name| - 8];
      var dtype := if suffix == "DFloat64" then Some(Float64)
                   else if suffix == "DFloat32" then Some(Float32)
                   else None;
      if dtype.None? || !AllDigits(digits) then None
      else Some((ParseDecimal(digits), dtype.value))
  }

  lemma ParseClassNameOfClassName(ndims: nat, dtype: DType)
    requires !dtype.OtherDType?
    ensures ParseClassName(ClassName(ndims, dtype)) == Some((ndims, dtype))
  {
    var d := Decimal(ndims);
    var name := ClassName(ndims, dtype);
    assert name[..5] == "RTree";
    assert name[|name| - 8..] == ClassSuffix(dtype);
    assert name[5..|name| - 8] == d;
    ParseDecimalOfDecimal(ndims);
  }

  /** `RTree.__init__(system, dtype, ndims)`; the geodetic system is only handed to the
      native constructor and is not modelled. */
  function NewRTree(dtype: DType, ndims: int): (r: Result<RTree, RError>)
    // ndims is checked before dtype
    ensures ndims < 3 ==> r == Err(NdimsTooSmall(ndims))
    ensures ndims >= 3 && dtype.OtherDType? ==> r == Err(DTypeNotHandled(dtype))
    ensures r.Ok? <==> ndims >= 3 && !dtype.OtherDType?
    // the dtype is recorded; the class name is `RTree{ndims}DFloat64` or `RTree{ndims}DFloat32`
    // and encodes exactly (ndims, dtype)
    ensures r.Ok? ==>
      && r.value.dtype == dtype && r.value.ndims == ndims
      && r.value.className == ClassName(ndims, dtype)
      && ParseClassName(r.value.className) == Some((ndims, dtype))
  {
    if ndims < 3 then Err(NdimsTooSmall(ndims))
    else if dtype.OtherDType? then Err(DTypeNotHandled(dtype))
    else
      ParseClassNameOfClassName(ndims, dtype);
      Ok(RTree(dtype, ndims, ClassName(ndims, dtype)))
  }

  /** Two different (ndims, dtype) pairs never select the same native class. */
  lemma ClassNamesDistinct(n1: nat, d1: DType, n2: nat, d2: DType)
    requires !d1.OtherDType? && !d2.OtherDType?
    requires ClassName(n1, d1) == ClassName(n2, d2)
    ensures n1 == n2 && d1 == d2
  {
    ParseClassNameOfClassName(n1, d1);
    ParseClassNameOfClassName(n2, d2);
  }

  /** One element of a pickle state tuple: a dtype, an integer, or the native state. */
  datatype StateItem<S> = DTypeItem(dtype: DType) | NdimsItem(ndims: int) | NativeState(state: S)

  /** `RTree(None, item)` compares `item` with the two handled dtypes; anything that is not
      one of them is an unhandled dtype. */
  function AsDType<S>(item: StateItem<S>): DType {
    match item
    case DTypeItem(d) => d
    case NdimsItem(_) => OtherDType("int")
    case NativeState(_) => OtherDType("object")
  }

  /** The object `__setstate__` leaves: the tree and the item handed to the native
      `__setstate__`. */
  datatype Restored<S> = Restored(tree: RTree, native: StateItem<S>)

  /** `__getstate__` as written: `(self.dtype, self._instance.__getstate__())`. */
  function GetStateAsWritten<S>(t: RTree, native: S): (state: seq<StateItem<S>>)
    ensures |state| == 2 && AsDType(state[0]) == t.dtype && state[1] == NativeState(native)
  {
    [DTypeItem(t.dtype), NativeState(native)]
  }

  /** `__setstate__` as written: the tree is rebuilt with the default dimension. */
  function SetStateAsWritten<S>(state: seq<StateItem<S>>): (r: Result<Restored<S>, RError>)
    ensures |state| != 2 ==> r == Err(InvalidState(|state|))
    ensures r.Ok? <==> |state| == 2 && !AsDType(state[0]).OtherDType?
    ensures r.Ok? ==>
      && r.value.tree.dtype == AsDType(state[0]) && r.value.tree.ndims == DefaultNdims
      && r.value.native == state[1]
  {
    if |state| != 2 then Err(InvalidState(|state|))
    else
      var t :- NewRTree(AsDType(state[0]), DefaultNdims);
      Ok(Restored(t, state[1]))
  }

  /** As written, pickling round-trips a tree exactly when it is three-dimensional: any
      other dimension comes back as a three-dimensional native class. */
  lemma {:induction false} PickleRoundTripAsWritten<S>(dtype: DType, ndims: int, native: S)
    requires NewRTree(dtype, ndims).Ok?
    ensures var t := NewRTree(dtype, ndims).value;
      SetStateAsWritten(GetStateAsWritten(t, native)) == Ok(Restored(t, NativeState(native)))
      <==> ndims == 3
  {
    var t := NewRTree(dtype, ndims).value;
    var back := SetStateAsWritten(GetStateAsWritten(t, native));
    if back == Ok(Restored(t, NativeState(native))) {
      assert back.value.tree.ndims == 3;
    }
  }

  /** `__getstate__` keeping the dimension: `(dtype, ndims, native state)`. */
  function GetState<S>(t: RTree, native: S): (state: seq<StateItem<S>>)
    ensures |state| == 3 && AsDType(state[0]) == t.dtype && state[1] == NdimsItem(t.ndims)
    ensures state[2] == NativeState(native)
  {
    [DTypeItem(t.dtype), NdimsItem(t.ndims), NativeState(native)]
  }

  /** `__setstate__` rebuilding the tree with the recorded dimension. */
  function SetState<S>(state: seq<StateItem<S>>): (r: Result<Restored<S>, RError>)
    ensures |state| != 3 || !state[1].NdimsItem? ==> r == Err(InvalidState(|state|))
    ensures r.Ok? ==>
      && r.value.tree.dtype == AsDType(state[0]) && r.value.tree.ndims == state[1].ndims
      && r.value.native == state[2]
  {
    if |state| != 3 || !state[1].NdimsItem? then Err(InvalidState(|state|))
    else
      var t :- NewRTree(AsDType(state[0]), state[1].ndims);
      Ok(Restored(t, state[2]))
  }

  /** With the dimension kept, every tree the constructor builds round-trips. */
  lemma {:induction false} PickleRoundTrip<S>(dtype: DType, ndims: int, native: S)
    requires NewRTree(dtype, ndims).Ok?
    ensures var t := NewRTree(dtype, ndims).value;
      SetState(GetState(t, native)) == Ok(Restored(t, NativeState(native)))
  {
  }
}

=== FILE: text.dfy ===
/** The string operations the RTree front end relies on, with Python's semantics restricted
    to ASCII: decimal rendering of an `int` (f-string), `str.split`, `str.capitalize`,
    `"".join`, and their inverses. */
module Text {

  predicate IsDigit(c: char) {
    '0' <= c <= '9'
  }

  predicate IsLowerLetter(c: char) {
    'a' <= c <= 'z'
  }

  predicate IsUpperLetter(c: char) {
    'A' <= c <= 'Z'
  }

  function DigitChar(d: nat): (c: char)
    requires d < 10
    ensures IsDigit(c)
  {
    (('0' as int) + d) as char
  }

  function DigitValue(c: char): (d: nat)
    requires IsDigit(c)
    ensures d < 10 && DigitChar(d) == c
  {
    (c as int) - ('0' as int)
  }

  predicate AllDigits(s: string) {
    forall i :: 0 <= i < |s| ==> IsDigit(s[i])
  }

  /** `f"{n}"` for a non-negative integer: digits only, no leading zero. */
  function Decimal(n: nat): (s: string)
    ensures |s| >= 1 && AllDigits(s)
    ensures s[0] == '0' ==> n == 0
    decreases n
  {
    if n < 10 then [DigitChar(n)] else Decimal(n / 10) + [DigitChar(n % 10)]
  }

  /** `int(s)` for a string of decimal digits. */
  function ParseDecimal(s: string): nat
    requires AllDigits(s)
  {
    if |s| == 0 then 0 else 10 * ParseDecimal(s[..|s| - 1]) + DigitValue(s[|s| - 1])
  }

  /** Parsing undoes rendering. */
  lemma {:induction false} ParseDecimalOfDecimal(n: nat)
    ensures ParseDecimal(Decimal(n)) == n
    decreases n
  {
    var s := Decimal(n);
    if n < 10 {
      assert s[..0] == [];
    } else {
      ParseDecimalOfDecimal(n / 10);
      assert s[..|s| - 1] == Decimal(n / 10);
    }
  }

  /** `sep.join(parts)` for a one-character separator. */
  function JoinWith(parts: seq<string>, sep: char): string {
    if |parts| == 0 then ""
    else if |parts| == 1 then parts[0]
    else parts[0] + [sep] + JoinWith(parts[1..], sep)
  }

  /** `s.split(sep)`: never empty, no part holds the separator, and joining the parts
      with the separator gives `s` back. */
  function Split(s: string, sep: char): (parts: seq<string>)
    ensures |parts| >= 1
    ensures forall p :: p in parts ==> sep !in p
    ensures JoinWith(parts, sep) == s
  {
    if |s| == 0 then [""]
    else
      var rest := Split(s[1..], sep);
      if s[0] == sep then
        assert [sep] + JoinWith(rest, sep) == s;
        [""] + rest
      else
        var parts := [[s[0]] + rest[0]] + rest[1..];
        assert parts[1..] == rest[1..];
        assert JoinWith(parts, sep) == [s[0]] + JoinWith(rest, sep);
        parts
  }

  function Upper(c: char): char {
    if IsLowerLetter(c) then ((c as int) - 32) as char else c
  }

  function Lower(c: char): char {
    if IsUpperLetter(c) then ((c as int) + 32) as char else c
  }

  function LowerAll(s: string): (r: string)
    ensures |r| == |s| && forall i :: 0 <= i < |s| ==> r[i] == Lower(s[i])
  {
    if |s| == 0 then "" else [Lower(s[0])] + LowerAll(s[1..])
  }

  /** `str.capitalize`: first character upper case, the others lower case. */
  function Capitalize(w: string): (r: string)
    ensures |r| == |w|
  {
    if |w| == 0 then "" else [Upper(w[0])] + LowerAll(w[1..])
  }

  function CapitalizeAll(parts: seq<string>): (r: seq<string>)
    ensures |r| == |parts| && forall i :: 0 <= i < |parts| ==> r[i] == Capitalize(parts[i])
  {
    if |parts| == 0 then [] else [Capitalize(parts[0])] + CapitalizeAll(parts[1..])
  }

  /** `"".join(parts)`. */
  function Concat(parts: seq<string>): string {
    if |parts| == 0 then "" else parts[0] + Concat(parts[1..])
  }

  /** `"".join(item.capitalize() for item in name.split("_"))`: snake_case to CamelCase. */
  function Mangle(name: string): string {
    Concat(CapitalizeAll(Split(name, '_')))
  }

  /** A lower-case ASCII word, as every part of a snake_case name is. */
  predicate IsLowerWord(w: string) {
    |w| >= 1 && forall i :: 0 <= i < |w| ==> IsLowerLetter(w[i])
  }

  /** Words of lower-case letters joined by single underscores. */
  predicate IsSnakeCase(name: string) {
    forall p :: p in Split(name, '_') ==> IsLowerWord(p)
  }

  /** CamelCase back to snake_case: an upper-case letter starts a new word, preceded by an
      underscore unless it opens the name. */
  function UnmangleFrom(t: string, atStart: bool): string {
    if |t| == 0 then ""
    else
      var head := if !IsUpperLetter(t[0]) then [t[0]]
                  else if atStart then [Lower(t[0])]
                  else ['_', Lower(t[0])];
      head + UnmangleFrom(t[1..], false)
  }

  function Unmangle(t: string): string {
    UnmangleFrom(t, true)
  }

  lemma {:induction false} UnmangleAppend(a: string, b: string, atStart: bool)
    ensures UnmangleFrom(a + b, atStart) == UnmangleFrom(a, atStart) + UnmangleFrom(b, atStart && |a| == 0)
  {
    if |a| == 0 {
      assert a + b == b;
    } else {
      assert (a + b)[1..] == a[1..] + b;
      UnmangleAppend(a[1..], b, false);
    }
  }

  lemma {:induction false} UnmangleLowerAll(w: string, atStart: bool)
    requires forall i :: 0 <= i < |w| ==> IsLowerLetter(w[i])
    ensures UnmangleFrom(LowerAll(w), atStart) == w
  {
    if |w| > 0 {
      UnmangleLowerAll(w[1..], false);
      assert LowerAll(w)[1..] == LowerAll(w[1..]);
    }
  }

  lemma UpperOfLowerLetter(ch: char)
    requires IsLowerLetter(ch)
    ensures IsUpperLetter(Upper(ch)) && Lower(Upper(ch)) == ch
  {
  }

  /** The letters after the first of a lower-case word come back unchanged. */
  lemma LowerWordUnmangles(p: string, tail: string)
    requires IsLowerWord(p) && tail == p[1..]
    ensures UnmangleFrom(LowerAll(tail), false) == tail
  {
    assert forall i :: 0 <= i < |tail| ==> IsLowerLetter(tail[i]);
    UnmangleLowerAll(tail, false);
  }

  lemma UnmangleCapitalized(p: string, atStart: bool)
    requires IsLowerWord(p)
    ensures UnmangleFrom(Capitalize(p), atStart) == (if atStart then "" else "_") + p
  {
    LowerWordUnmangles(p, p[1..]);
    UpperOfLowerLetter(p[0]);
  }

  /** The first capitalised part unmangles to itself, after an underscore unless it opens
      the name. */
  lemma UnmangleFirstPart(parts: seq<string>, atStart: bool)
    requires |parts| >= 1 && IsLowerWord(parts[0])
    ensures UnmangleFrom(Concat(CapitalizeAll(parts)), atStart)
         == (if atStart then "" else "_") + parts[0] + UnmangleFrom(Concat(CapitalizeAll(parts[1..])), false)
  {
    var caps := CapitalizeAll(parts);
    assert caps[1..] == CapitalizeAll(parts[1..]);
    assert Concat(caps) == caps[0] + Concat(caps[1..]);
    UnmangleAppend(caps[0], Concat(caps[1..]), atStart);
    UnmangleCapitalized(parts[0], atStart);
  }

  /** Regrouping `pre + a + ("_" + j)` as `pre + (a + "_" + j)`. */
  lemma Regroup(whole: string, pre: string, a: string, tail: string, j: string)
    requires whole == pre + a + tail && tail == "_" + j
    ensures whole == pre + (a + ['_'] + j)
  {
  }

  /** Parts after the first: each comes back preceded by an underscore. */
  lemma {:induction false} UnmangleLaterParts(parts: seq<string>)
    requires |parts| >= 1 && forall i :: 0 <= i < |parts| ==> IsLowerWord(parts[i])
    ensures UnmangleFrom(Concat(CapitalizeAll(parts)), false) == "_" + JoinWith(parts, '_')
  {
    var whole := UnmangleFrom(Concat(CapitalizeAll(parts)), false);
    var tail := UnmangleFrom(Concat(CapitalizeAll(parts[1..])), false);
    UnmangleFirstPart(parts, false);
    if |parts| == 1 {
      assert CapitalizeAll(parts[1..]) == [];
      assert tail == "";
    } else {
      var rest := parts[1..];
      assert forall i :: 0 <= i < |rest| ==> rest[i] == parts[i + 1];
      UnmangleLaterParts(rest);
      Regroup(whole, "_", parts[0], tail, JoinWith(rest, '_'));
    }
  }

  lemma UnmangleOnePart(parts: seq<string>)
    requires |parts| == 1 && IsLowerWord(parts[0])
    ensures UnmangleFrom(Concat(CapitalizeAll(parts)), true) == JoinWith(parts, '_')
  {
    UnmangleFirstPart(parts, true);
    assert CapitalizeAll(parts[1..]) == [];
    assert "" + parts[0] + "" == parts[0];
  }

  lemma UnmangleSeveralParts(parts: seq<string>)
    requires |parts| >= 2 && forall i :: 0 <= i < |parts| ==> IsLowerWord(parts[i])
    ensures UnmangleFrom(Concat(CapitalizeAll(parts)), true) == JoinWith(parts, '_')
  {
    var rest := parts[1..];
    var j := JoinWith(rest, '_');
    var tail := UnmangleFrom(Concat(CapitalizeAll(rest)), false);
    var whole := UnmangleFrom(Concat(CapitalizeAll(parts)), true);
    UnmangleFirstPart(parts, true);
    assert "" + parts[0] == parts[0];
    assert whole == parts[0] + tail;
    assert forall i :: 0 <= i < |rest| ==> rest[i] == parts[i + 1];
    UnmangleLaterParts(rest);
    Regroup(whole, [], parts[0], tail, j);
    assert [] + (parts[0] + ['_'] + j) == JoinWith(parts, '_');
  }

  lemma UnmangleParts(parts: seq<string>)
    requires |parts| >= 1 && forall i :: 0 <= i < |parts| ==> IsLowerWord(parts[i])
    ensures UnmangleFrom(Concat(CapitalizeAll(parts)), true) == JoinWith(parts, '_')
  {
    if |parts| == 1 {
      UnmangleOnePart(parts);
    } else {
      UnmangleSeveralParts(parts);
    }
  }

  /** Unmangling undoes mangling on every snake_case name. */
  lemma UnmangleMangle(name: string)
    requires IsSnakeCase(name)
    ensures Unmangle(Mangle(name)) == name
  {
    var parts := Split(name, '_');
    forall i | 0 <= i < |parts| ensures IsLowerWord(parts[i]) {
      assert parts[i] in parts;
    }
    UnmangleParts(parts);
  }

  /** Hence two snake_case names never mangle to the same identifier. */
  lemma MangleInjective(a: string, b: string)
    requires IsSnakeCase(a) && IsSnakeCase(b) && Mangle(a) == Mangle(b)
    ensures a == b
  {
    UnmangleMangle(a);
    UnmangleMangle(b);
  }

  lemma {:induction false} NoUnderscoreInLowerAll(w: string)
    requires '_' !in w
    ensures '_' !in LowerAll(w)
  {
    if |w| > 0 {
      assert w[0] != '_';
      NoUnderscoreInLowerAll(w[1..]);
    }
  }

  lemma {:induction false} NoUnderscoreInConcat(parts: seq<string>)
    requires forall p :: p in parts ==> '_' !in p
    ensures '_' !in Concat(CapitalizeAll(parts))
  {
    if |parts| > 0 {
      var p := parts[0];
      assert p in parts;
      if |p| > 0 {
        assert p[0] != '_';
        NoUnderscoreInLowerAll(p[1..]);
        assert Capitalize(p) == [Upper(p[0])] + LowerAll(p[1..]);
      }
      assert CapitalizeAll(parts)[1..] == CapitalizeAll(parts[1..]);
      NoUnderscoreInConcat(parts[1..]);
    }
  }

  /** A mangled name never holds an underscore, whatever the input. */
  lemma MangleHasNoUnderscore(name: string)
    ensures '_' !in Mangle(name)
  {
    NoUnderscoreInConcat(Split(name, '_'));
  }
}

=== FILE: wrappers.dfy ===
/** Failure-compatible wrappers shared by every module of the model:
    `Option` for Python's `Optional`/`None`, `Result` for a value or a raised exception. */
module Wrappers {

  datatype Option<+T> = None | Some(value: T) {

    predicate IsFailure() {
      None?
    }

    function PropagateFailure<U>(): Option<U>
      requires None?
    {
      None
    }

    function Extract(): T
      requires Some?
    {
      value
    }

    /** Python's `x or default` when only `None` is falsy. */
    function GetOr(default: T): T {
      match this
      case Some(v) => v
      case None => default
    }
  }

  datatype Result<+T, +E> = Ok(value: T) | Err(error: E) {

    predicate IsFailure() {
      Err?
    }

    function PropagateFailure<U>(): Result<U, E>
      requires Err?
    {
      Err(error)
    }

    function Extract(): T
      requires Ok?
    {
      value
    }
  }
}
